=== FILE: README.md ===
# wlf-util in Dafny

A model of the sequential logic in the `wlf-util` helper library. The model is written as pure functions over immutable datatypes.

- **Connection caches** (`Cache`, `Shell`). `InfluxUtil`, `MysqlUtil`, `ShellUtil`, `MinioUtil` and `RedisUtil` each keep a class-level pair `(CONN, CFID)`: the cached connection and the fingerprint of the configuration that opened it. `_init(conf)` keeps the connection or calls `connect(conf)`. The model is an explicit `State` value with transition functions. What the client constructor did (a handle, or an exception) is an input. So is whether MySQL's `ping` raised.
- **Configuration fingerprint** (`Fingerprint`). `UniUtil.get_uuid` sorts the items of a configuration dict by key and renders each pair as Python's `str((key, value))`. It joins the renderings with `|` and hashes the result with uuid3. The hash is a function parameter. The canonical string before it is modelled for string, integer, boolean and `None` values, and shown not to depend on insertion order. Two limits apply: float values are not modelled, and `repr` escapes only backslash, the quote, `\n`, `\r` and `\t` (see "## Left out").
- **Adapter helpers**:
  - `Shell.Classify`, the shell reply classification;
  - `Influx`, the point shaping in `write_data`;
  - `Minio`, the download URL in `upload`, the bucket policy and the `create_bucket` decision;
  - `Values.DelNone`, for `del_none`.
- **Version bump** (`ChangeVersion`). `change_version()` maps the lines of `setup.py` to the lines it writes back, or to the exception that stops it before anything is written.
- **Size label** (`FileSize`). `FileUtil.get_file_size` sums a file or a directory's direct entries and picks a 1024-based band.

Supporting modules:

- `Wrappers`: `Option`, `Result`, the Python exceptions the model raises, and `MapUntilFailure`, a loop whose body may raise.
- `Text`: Python's `str.strip`, `in`, `split`, `int()` and `str(int)` on ASCII text.
- `Values`: the Python values that configurations and rows hold, with `str`, `repr` and truthiness.

Behaviour worth knowing before reading the contracts:

- **Failed `connect`.** A failed `connect` does not clear the cache. `InfluxUtil`, `MysqlUtil`, `MinioUtil` and `RedisUtil` assign `CONN` only after the client constructor returns. So a failure keeps the previous handle and fingerprint (`Cache.FailedReconnectKeepsPrevious`). `ShellUtil` first replaces `CONN` with a fresh `SSHClient` and then connects it. So a failure leaves an unconnected client next to the old `CFID` (`Shell.FailedConnectDisagrees`). A later `exec` on that client raises `AttributeError` when `SSHClient.connect` failed before creating a transport, and paramiko's `SSHException` when the handshake or the authentication failed.
- **Redis.** `RedisUtil`'s operations never call `_init`. Only its `_init`/`connect` are modelled, and they follow the generic cache (`Cache.Init`, `Cache.Connect`).
- **Unreadable version.** A version line whose text cannot be read is an error path (`IndexError`, `ValueError`), not a precondition. The run stops with the exception of the first such candidate.
- **Rounding in `write_data`.** `round(v, 3)` runs on every value from `row[2:]` before `data[0]` and `data[1]` are read. A string or `None` value therefore raises `TypeError`. A boolean becomes the integer 0 or 1.

## Model

| member | source | states |
|---|---|---|
| Text.Strip | wlfutil/all.py:629 | `strip()` is empty exactly when the text is all whitespace; otherwise it starts and ends with a non-space character |
| Text.ContainsIffOccurs | changeversion.py:10 | `prefix in line` holds exactly when the prefix occurs at some position of the line |
| Text.SecondField | changeversion.py:11 | `line.split('=')[1]` is absent exactly when the line has no `=`; otherwise it is the text after the first `=`, up to the second `=` or the end of the line |
| Text.ParseInt | changeversion.py:11 | `int()` succeeds exactly when the text, without the TAB, LF, VT, FF, CR and SPACE characters it skips at both ends, is one or more digits, or a sign followed by one or more digits (so `+5` and `007` are read); the value is that of the signed digits |
| Text.SeparatorNotSkipped | changeversion.py:11 | a separator 0x1C before the digits is removed by `strip()` but makes `int()` raise `ValueError` |
| Text.IntToString | changeversion.py:12 | `str(n)` is a `-` exactly for negative numbers, followed by decimal digits whose value is the magnitude, with no leading zero except for `0` itself; it has no surrounding whitespace |
| Text.ParseIntToString | changeversion.py:11-12 | `int()` reads back the number that `format` wrote, whatever TAB, LF, VT, FF, CR and SPACE characters surround it |
| Text.ReplaceChar | wlfutil/all.py:507 | `replace(' ', 'T')` changes exactly the spaces and keeps the length |
| Values.StrOf | wlfutil/all.py:29 | `str` of a string is the string itself, `str` of an integer is its decimal text (`-` for negatives, no leading zero except `0` itself) and reads back as that integer with `int()`, and `True`, `False` and `None` render as their names |
| Values.Repr | wlfutil/all.py:29 | `repr` of a string is enclosed in the quote Python picks and its escaped body reads back as the string; other values render as `str` |
| Values.UnescapeEscape | wlfutil/all.py:29 | escaping a string for either quote loses nothing: reading the escapes back gives the string |
| Values.ReprStrInjective | wlfutil/all.py:29 | different strings have different reprs |
| Values.Truthy | wlfutil/all.py:87 | the falsy values are exactly `None`, `False`, `0` and `''` |
| Values.DelNone | wlfutil/all.py:85-87 | the result holds only truthy elements, and each truthy value as many times as the input |
| Values.DelNoneAppend | wlfutil/all.py:87 | the comprehension keeps the original order: filtering distributes over concatenation |
| Values.DelNoneKeepsTruthy | wlfutil/all.py:87 | a list of truthy elements passes through unchanged |
| Values.DelNoneFixedIff | wlfutil/all.py:87 | a list is unchanged exactly when every element is truthy |
| Values.DelNoneIdempotent | wlfutil/all.py:87 | filtering twice equals filtering once |
| Values.Lookup | wlfutil/all.py:668 | `conf[key]` finds a value stored under the key, and fails exactly when no item has that key |
| Fingerprint.LexTotal | wlfutil/all.py:28 | any two keys are comparable under Python's string order |
| Fingerprint.LexAntisymmetric | wlfutil/all.py:28 | keys that compare both ways are equal |
| Fingerprint.LexTransitive | wlfutil/all.py:28 | the key order is transitive |
| Fingerprint.Sort | wlfutil/all.py:28 | `sorted(items, key=key)` is ordered by key and is a permutation of the items |
| Fingerprint.SortDistinct | wlfutil/all.py:28 | sorting a dict's items keeps the keys distinct |
| Fingerprint.SortedUnique | wlfutil/all.py:28 | two key-sorted lists with distinct keys and the same items are equal |
| Fingerprint.RenderAll | wlfutil/all.py:29 | one `str((key, value))` per sorted item, in order |
| Fingerprint.Canonical | wlfutil/all.py:28-30 | the hashed string is empty exactly for an empty dict, otherwise starts with a tuple's `(`; a single item is rendered alone |
| Fingerprint.Id | wlfutil/all.py:31 | `get_uuid` is the hash of the canonical string, so it depends on the configuration only through that string |
| Fingerprint.CanonicalOrderIndependent | wlfutil/all.py:26-31 | two dicts with the same items, in any insertion order, give the same string to hash |
| Fingerprint.IdOrderIndependent | wlfutil/all.py:26-31 | two dicts with the same items give the same `get_uuid`, whatever the hash |
| Fingerprint.CanonicalTwoItems | wlfutil/all.py:28-30 | with two keys the smaller key's rendering comes first, then `|`, then the other; both insertion orders agree |
| Cache.Initial | wlfutil/all.py:470-471 | before the first call both `CONN` and `CFID` are `None`, which is a coherent state |
| Cache.FirstInitConnects | wlfutil/all.py:474-486 | the first `_init` always connects; it leaves the class without a connection when the constructor raises, and with a hit for `conf` otherwise |
| Cache.Connect | wlfutil/all.py:481-486 | success stores the new handle together with the fingerprint of `conf`; a raised constructor leaves the state as it was |
| Cache.Init | wlfutil/all.py:474-478 | `_init` keeps the state on a hit and calls `connect` otherwise; afterwards the cache hits for `conf` unless the connect raised and nothing changed (also `MinioUtil` 650-654, `RedisUtil` 728-732) |
| Cache.InitProbed | wlfutil/all.py:552-561 | MySQL keeps the state only on a hit whose ping succeeds; every other case calls `connect` with the same `conf` |
| Cache.CoherentPreserved | wlfutil/all.py:481-486 | `CONN` and `CFID` are set together and stay so through `connect` and both forms of `_init` |
| Cache.ReorderedConfigHits | wlfutil/all.py:474-478 | a configuration with the same items in another order does not reconnect |
| Cache.InitSettles | wlfutil/all.py:474-478 | after a successful `_init` for `conf`, another `_init` for `conf` changes nothing |
| Cache.ChangedConfigReplaces | wlfutil/all.py:477-478 | a configuration with another fingerprint replaces handle and fingerprint when the connection succeeds |
| Cache.FailedReconnectKeepsPrevious | wlfutil/all.py:482-486 | a failed reconnect for a new configuration keeps the previous handle and fingerprint, so the cache still hits for the old configuration and not for the new one |
| Cache.ProbeFailureReconnects | wlfutil/all.py:558-561 | a raising ping reconnects with the same configuration: the handle changes, the fingerprint does not |
| Shell.Connect | wlfutil/all.py:612-619 | `CONN` always becomes the new client, open only if `SSHClient.connect` succeeded; `CFID` moves to the new fingerprint only on success |
| Shell.Init | wlfutil/all.py:605-609 | the shell `_init` keeps the cached client on a fingerprint match, whether or not that client is open, and connects otherwise |
| Shell.Classify | wlfutil/all.py:629-632 | status 200 with the error text exactly when the error text has a non-whitespace character, else 201 with the output |
| Shell.LinkAfter | wlfutil/all.py:616 | `SSHClient.connect` leaves an open transport exactly when it succeeds, and no transport exactly when it failed before creating one |
| Shell.ExecError | wlfutil/all.py:624 | `exec_command` on a client without a transport raises `AttributeError`; on an unfinished transport it raises `SSHException` |
| Shell.CloseCached | wlfutil/all.py:625 | closing drops the transport and keeps the same client and the fingerprint in the cache |
| Shell.Exec | wlfutil/all.py:622-632 | `exec` succeeds exactly when the client after `_init` is open; it then closes that client, keeps `CFID` and classifies the output; on a client that is not open it raises (`AttributeError` without a transport, `SSHException` on an unfinished one) and changes nothing more |
| Shell.SecondExecFails | wlfutil/all.py:622-625 | after a successful `exec`, a second `exec` with the same configuration does not reconnect and raises `AttributeError` |
| Shell.FailedConnectDisagrees | wlfutil/all.py:613-619 | a failed connect leaves a new unconnected client next to the old fingerprint, and a later `exec` with the old configuration fails: `AttributeError` when no transport was made, `SSHException` when the handshake or authentication failed |
| Shell.InitLive | wlfutil/all.py:605-609 | corrected `_init`: reuse only an open client for the same fingerprint; a successful connect leaves an open client that hits |
| Shell.ExecFixed | wlfutil/all.py:622-632 | corrected `exec`: when connecting succeeds the command runs and is classified, and the client is left closed |
| Shell.RepeatedExecSucceeds | wlfutil/all.py:622-625 | with the correction, two `exec` calls with the same configuration both return their classified output |
| Influx.FieldNamesDistinct | wlfutil/all.py:503-504 | the field names `v1`, `v2`, … are pairwise different, so no field overwrites another |
| Influx.Round | wlfutil/all.py:504 | `round(v, 3)` succeeds exactly on integers and booleans and gives an integer, leaving integers as they are and turning `True` into 1 and `False` into 0; strings and `None` raise `TypeError` |
| Influx.RoundAll | wlfutil/all.py:503-504 | rounding every value succeeds exactly when each one can be rounded, and keeps them in order; otherwise `TypeError` |
| Influx.Named | wlfutil/all.py:503-504 | one `(f'v{i}', v)` pair per value, in order, numbered from the given start |
| Influx.Fields | wlfutil/all.py:503-504 | one field per value, in order, named `v` followed by its 1-based position and holding the rounded value; `TypeError` exactly when some value cannot be rounded |
| Influx.TimeText | wlfutil/all.py:507 | `str(time)` with each space turned into `T`, followed by `+08:00`; the result holds no space |
| Influx.Shape | wlfutil/all.py:501-513 | a row shorter than two raises `IndexError`; a longer row with a string or `None` in `row[2:]` raises `TypeError`; otherwise the point has `measurement` `tbl`, the converted time, the single tag `tid` holding `str(row[1])` and fields `v1..vn` holding the rounded `row[2:]` |
| Influx.NonNumericFieldRaises | wlfutil/all.py:503-504 | a row `(time, tid, v)` whose `v` is a string or `None` raises `TypeError` |
| Wrappers.MapUntilFailure | wlfutil/all.py:500-513 | a loop whose body may raise: every result in order exactly when no step raises, otherwise the exception of the first step that does |
| Influx.ShapeAll | wlfutil/all.py:500-513 | one point per row, in order, exactly when every row can be shaped; otherwise the error of the first row that cannot |
| Influx.WriteData | wlfutil/all.py:495-514 | `write_data` runs `_init`, then sends the shaped points; a shaping error (`IndexError` or `TypeError` of the first bad row) comes first, then `AttributeError` when no connection exists |
| Minio.UploadUrl | wlfutil/all.py:669-671 | the URL is `http://`, the endpoint, `/`, the bucket, `/` and the file name, each piece at its position |
| Minio.UploadUrlInjective | wlfutil/all.py:668-671 | the URL `http://endpoint/bucket/filename` determines endpoint, bucket and filename when the first two hold no slash |
| Minio.Upload | wlfutil/all.py:665-671 | `upload` returns that URL after `_init`; `KeyError` without an `endpoint` entry, `AttributeError` without a connection |
| Minio.Policy | wlfutil/all.py:697 | `POLICY % (bucket, bucket)` keeps the template's fixed head, middle and tail and puts the bucket in both `%s` slots; its length is the template text's plus twice the bucket's |
| Minio.PolicyInjective | wlfutil/all.py:647 | the policy template filled with different buckets gives different policies |
| Minio.CreateBucket | wlfutil/all.py:691-699 | an existing bucket gives `False` and no action; otherwise the bucket is made, the policy is set exactly when `is_policy`, and the result is `True` |
| Minio.CreateBucketAsWritten | wlfutil/all.py:691-692 | as written, every call raises `TypeError` after `_init`, before any bucket action |
| FileSize.Format | wlfutil/wlfutil.py:174-185 | below 1024 bytes the literal `1024B`; the raw integer exactly from 1024^5 on; otherwise a unit whose band holds the size |
| FileSize.BandUnique | wlfutil/wlfutil.py:177-184 | at most one band `[1024^k, 1024^(k+1))` with k in 1..4 holds a size |
| FileSize.BandExists | wlfutil/wlfutil.py:177-184 | every size from 1024 to below 1024^5 lies in some band |
| FileSize.QuotientInRange | wlfutil/wlfutil.py:177-184 | inside band k the unrounded quotient size/1024^k lies in [1, 1024) |
| FileSize.ScaledBand | wlfutil/wlfutil.py:177-184 | a size in band k is shown scaled, with the unit of band k and a quotient in [1, 1024) |
| FileSize.GetFileSize | wlfutil/wlfutil.py:160-185 | the loop over the entries computes the label of the path's total: the file's size, the sum of a directory's direct entries, or 0 for a missing path |
| FileSize.TotalIgnoresNesting | wlfutil/wlfutil.py:166-169 | a directory's total depends only on the sizes of its direct entries |
| FileSize.NestedContentNotCounted | wlfutil/wlfutil.py:166-169 | a sub-directory counts with its own size, not with its contents |
| ChangeVersion.VersionOf | changeversion.py:11 | reading the version raises `IndexError` exactly when the line has no `=` |
| ChangeVersion.AssignmentLine | changeversion.py:12 | the written line starts with `VNU = ` and is one line ending in `\n` |
| ChangeVersion.AssignmentLineVersion | changeversion.py:12 | a written assignment line still contains `VNU`, and its version reads back as the number written |
| ChangeVersion.RewriteLine | changeversion.py:11-12 | a rewritten line still contains `VNU` and reads as the old version plus one; reading errors propagate |
| ChangeVersion.RewriteFrom | changeversion.py:8-13 | the loop succeeds exactly when every line's step does; it then keeps the line count and maps each line by its step; a failure is the error of the first line whose step fails |
| ChangeVersion.Bump | changeversion.py:2-15 | success exactly when every candidate in rows 1..4 is readable; the same number of lines; each candidate becomes the assignment of its version plus one; all other lines, and every line from row 5 on, are copied; without candidates the output is the input; a failure is the `VersionOf` error of the first unreadable candidate |
| ChangeVersion.FirstRowUnreadable | changeversion.py:10-11 | a first line that names `VNU` without any `=` stops the run with `IndexError`, whatever follows |
| ChangeVersion.BumpTwice | changeversion.py:2-15 | running twice raises every candidate's version by two and leaves all other lines alone |
| ChangeVersion.VersionUnreadable | changeversion.py:11 | a single `=` followed by text that, after the whitespace `int()` skips, starts with neither a sign nor a digit raises `ValueError` |
| ChangeVersion.OneCandidate | changeversion.py:8-13 | with exactly one readable candidate, only that line changes |
| ChangeVersion.LaterRowsCopied | setup.py:1-5 | three lines without `VNU`, then `VNU = n` in row 4: only row 4 changes, to `VNU = n+1`, and later lines such as row 5's f-string cannot make the run fail |

## Left out

- I/O of every kind: file reading and writing in `change_version`; `os.listdir`, `os.path.getsize`, `isdir` and `isfile` (modelled as a `Node` tree); the remote commands' output (an input to `Shell.Exec`).
- Client calls: `query`, `write_points`, `cursor`/`execute`/`commit`, `exec_command`, `fput_object`, `bucket_exists`, `make_bucket`, `set_bucket_policy`, `fget_object` and the Redis commands. The constructor and ping outcomes are inputs. `create_bucket`'s actions are returned as a list.
- `exec_sql`, `write_points`, `create_db`, `MysqlUtil.get`/`save`, `exists_bucket` and `download`: each is `_init` followed by a client call. Only the `_init` part is modelled.
- `RedisUtil.exist`/`get`/`set`/`lget`/`lset`: client calls without `_init`.
- Fingerprint.Id: the uuid3/MD5 step is the parameter `hash`. The string it hashes is modelled with the two limits below.
- Float values in configurations and rows: `Value` has no floats, so a configuration such as `{'timeout': 30.0}` and the rounding of fractional fields are outside the model.
- Shell.ExecError: paramiko is not part of this model. The two exceptions follow its behaviour: `close()` drops the transport, and `connect()` creates the transport before the handshake and the authentication. Exceptions other than `SSHException` that a half-open transport might raise are not told apart.
- Influx.Round: models `round(v, 3)` on integers, booleans, strings and `None` only. Floats are not modelled, so no rounding of a fraction takes place.
- FileSize.Format: carries the exact real quotient and the unit, not the text `round(q, 3)` renders.
- Values.Repr: escapes backslash, the chosen quote, `\n`, `\r` and `\t` only. Other non-printable characters are not escaped.
- Values.Truthy: covers only the value kinds in the model (strings, integers, booleans, `None`).
- Text.ParseInt: accepts ASCII digits only. No underscores, no non-ASCII digits, and no non-ASCII whitespace, which `int()` also skips (`int('\u30005') == 5`).
- Text.ParseInt: unbounded. Recent CPython versions raise `ValueError` on texts of more than 4300 digits, and `str(n)` raises for such `n`. The model reads and writes integers of any length (also `Text.IntToString`, `Text.ParseIntToString`).
- Text.Strip: strips ASCII whitespace only.
- `DtUtil`, `LogUtil`, `ConfUtil`, `range_partition`, `date_partition`, `time_cost`, `get_os`, `to_str` and the rest of `FileUtil`: dates, logging, config files and the filesystem, outside the modelled logic.
- Concurrency: the class-level caches are modelled single-threaded.

## Findings

| source | as written | input that shows it | evidently intended | confidence | as-written member | corrected member |
|---|---|---|---|---|---|---|
| wlfutil/all.py:622-625 | `exec` closes the client but keeps it and `CFID` cached, and `_init` trusts a matching fingerprint | two `ShellUtil.exec(conf, cmd)` calls with the same `conf`: the second runs `exec_command` on the closed client and raises | each call runs on an open client, reconnecting when the cached one was closed | not executed | Shell.SecondExecFails | Shell.RepeatedExecSucceeds |
| wlfutil/all.py:692 | `cls.exists_bucket(bucket=bucket)` omits the required `conf` argument | any `MinioUtil.create_bucket(conf, 'b')`: raises `TypeError` after `_init` | `cls.exists_bucket(conf, bucket=bucket)`, then make the bucket and set the policy | not executed | Minio.CreateBucketAsWritten | Minio.CreateBucket |

=== FILE: cache.dfy ===
/**
 The connection cache shared by `InfluxUtil`, `MysqlUtil`, `MinioUtil` and
 `RedisUtil`: each class keeps one connection `CONN` and the fingerprint
 `CFID` of the configuration that opened it. `connect` swallows any failure
 of the client constructor; `_init` reconnects unless the cached connection
 was opened for the same configuration (and, for MySQL, still answers a ping).
 The outcome of the client constructor and of the ping are inputs.
 */
module Cache {
  import opened Wrappers
  import opened Values
  import Fingerprint

  /** The class attributes `(CONN, CFID)`. */
  datatype State<H> = State(conn: Option<H>, cfid: Option<string>)

  /** The state before the first call: both attributes are `None`. */
  function Initial<H>(): (r: State<H>)
    ensures r.conn.None? && Coherent(r)
  {
    State(None, None)
  }

  /** What a client constructor did: returned a handle, or raised. */
  datatype Outcome<H> = Established(handle: H) | Raised

  /** The cached connection may be reused for `conf`: `CONN` is set and
      `CFID` equals `get_uuid(conf)`. */
  predicate Hit<H>(s: State<H>, hash: string -> string, conf: Config) {
    s.conn.Some? && s.cfid == Some(Fingerprint.Id(hash, conf))
  }

  /** `connect(conf)`: on success both attributes are replaced; on failure the
      exception is logged and swallowed and the state is left as it was. */
  function Connect<H>(s: State<H>, hash: string -> string, conf: Config, o: Outcome<H>): (r: State<H>)
    ensures o.Established? ==> r.conn == Some(o.handle) && Hit(r, hash, conf)
    ensures o.Raised? ==> r == s
  {
    match o
    case Established(h) => State(Some(h), Some(Fingerprint.Id(hash, conf)))
    case Raised => s
  }

  /** `_init(conf)` without a liveness probe: keep the connection on a hit,
      otherwise call `connect(conf)`. Afterwards either the cache is a hit for
      `conf`, or the connect failed and nothing changed. */
  function Init<H>(s: State<H>, hash: string -> string, conf: Config, o: Outcome<H>): (r: State<H>)
    ensures Hit(s, hash, conf) ==> r == s
    ensures !Hit(s, hash, conf) ==> r == Connect(s, hash, conf, o)
    ensures Hit(r, hash, conf) || (o.Raised? && r == s)
  {
    if s.conn.None? then Connect(s, hash, conf, o)
    else if s.cfid != Some(Fingerprint.Id(hash, conf)) then Connect(s, hash, conf, o)
    else s
  }

  /** `MysqlUtil._init(conf)`: on a hit the connection is pinged; a ping that
      raises leads to `connect(conf)` with the same configuration. */
  function InitProbed<H>(s: State<H>, hash: string -> string, conf: Config, pingOk: bool, o: Outcome<H>): (r: State<H>)
    ensures Hit(s, hash, conf) && pingOk ==> r == s
    ensures !(Hit(s, hash, conf) && pingOk) ==> r == Connect(s, hash, conf, o)
    ensures Hit(r, hash, conf) || (o.Raised? && r == s)
  {
    if s.conn.None? then Connect(s, hash, conf, o)
    else if s.cfid != Some(Fingerprint.Id(hash, conf)) then Connect(s, hash, conf, o)
    else if pingOk then s
    else Connect(s, hash, conf, o)
  }

  /** For these four classes `CONN` and `CFID` are set together. */
  predicate Coherent<H>(s: State<H>) {
    s.conn.Some? <==> s.cfid.Some?
  }

  /** The first `_init` of a class always connects; when the constructor
      raises, the class stays without a connection and `CFID`. */
  lemma FirstInitConnects<H>(hash: string -> string, conf: Config, o: Outcome<H>)
    ensures Init(Initial(), hash, conf, o) == Connect(Initial(), hash, conf, o)
    ensures o.Raised? ==> Init(Initial(), hash, conf, o) == Initial()
    ensures o.Established? ==> Hit(Init(Initial(), hash, conf, o), hash, conf)
  {
  }

  lemma CoherentPreserved<H>(s: State<H>, hash: string -> string, conf: Config, pingOk: bool, o: Outcome<H>)
    requires Coherent(s)
    ensures Coherent(Connect(s, hash, conf, o))
    ensures Coherent(Init(s, hash, conf, o))
    ensures Coherent(InitProbed(s, hash, conf, pingOk, o))
  {
  }

  /** A configuration with the same items in another insertion order hits
      the cache: no reconnect, whatever the constructor would have done. */
  lemma ReorderedConfigHits<H>(s: State<H>, hash: string -> string, c1: Config, c2: Config, o: Outcome<H>)
    requires Hit(s, hash, c1)
    requires DistinctKeys(c1) && DistinctKeys(c2) && SameItems(c1, c2)
    ensures Init(s, hash, c2, o) == s
    ensures InitProbed(s, hash, c2, true, o) == s
  {
    Fingerprint.IdOrderIndependent(hash, c1, c2);
  }

  /** Once `_init` has connected for `conf`, a second `_init` with `conf`
      changes nothing. */
  lemma InitSettles<H>(s: State<H>, hash: string -> string, conf: Config, o1: Outcome<H>, o2: Outcome<H>)
    requires o1.Established? || Hit(s, hash, conf)
    ensures Init(Init(s, hash, conf, o1), hash, conf, o2) == Init(s, hash, conf, o1)
  {
  }

  /** A configuration with another fingerprint replaces the cached handle
      when the new connection succeeds. */
  lemma ChangedConfigReplaces<H>(s: State<H>, hash: string -> string, c1: Config, c2: Config, h: H)
    requires Hit(s, hash, c1)
    requires Fingerprint.Id(hash, c1) != Fingerprint.Id(hash, c2)
    ensures Init(s, hash, c2, Established(h)) == State(Some(h), Some(Fingerprint.Id(hash, c2)))
  {
  }

  /** When the new connection fails, the handle opened for the previous
      configuration stays cached, so the caller's next client call goes to
      the previous resource. */
  lemma FailedReconnectKeepsPrevious<H>(s: State<H>, hash: string -> string, c1: Config, c2: Config)
    requires Hit(s, hash, c1)
    requires Fingerprint.Id(hash, c1) != Fingerprint.Id(hash, c2)
    ensures Init(s, hash, c2, Raised) == s
    ensures Hit(Init(s, hash, c2, Raised), hash, c1) && !Hit(Init(s, hash, c2, Raised), hash, c2)
  {
  }

  /** A failed ping with a matching fingerprint reconnects with the same
      configuration: the handle changes, the fingerprint does not. */
  lemma ProbeFailureReconnects<H>(s: State<H>, hash: string -> string, conf: Config, h: H)
    requires Hit(s, hash, conf)
    ensures InitProbed(s, hash, conf, false, Established(h)) == State(Some(h), s.cfid)
  {
  }
}

=== FILE: changeversion.dfy ===
/**
 `change_version()`: bump the build number assigned in the first four lines
 of `setup.py`. Lines are read with their line terminators; the file I/O is
 left out, so the operation maps the list of lines read to the list of
 lines written, or to the exception that stops it before anything is
 written.
 */
module ChangeVersion {
  import opened Wrappers
  import Text

  /** The variable holding the build number. */
  const Prefix := "VNU"

  /** `row_num in range(1, 5)`: the 1-based rows 1 to 4. */
  predicate InWindow(row: nat) {
    1 <= row < 5
  }

  /** A line the loop rewrites: inside the window and containing the prefix. */
  predicate IsCandidate(row: nat, line: string) {
    InWindow(row) && Text.Contains(line, Prefix)
  }

  /** `int(line.split('=')[1])`: `IndexError` when the line has no `=`,
      `ValueError` when the text up to the next `=` is not an integer. */
  function VersionOf(line: string): (r: Result<int, PyError>)
    ensures r == Failure(IndexError) <==> '=' !in line
  {
    match Text.SecondField(line, '=')
    case None => Failure(IndexError)
    case Some(f) =>
      match Text.ParseInt(f)
      case None => Failure(ValueError)
      case Some(n) => Success(n)
  }

  /** `"{} = {}\n".format(prefix, n)`. */
  function AssignmentLine(n: int): (r: string)
    ensures Prefix + " = " <= r
    ensures r[|r| - 1] == '\n' && '\n' !in r[..|r| - 1]
  {
    var d := Text.IntToString(n);
    var r := Prefix + " = " + d + "\n";
    assert '\n' !in d by {
      if n >= 0 {
        assert Text.AllDigits(d);
      } else {
        assert d == [d[0]] + d[1..];
        assert Text.AllDigits(d[1..]);
      }
    }
    assert r[..|r| - 1] == Prefix + " = " + d;
    r
  }

  /** An assignment line names the prefix and assigns exactly `n`. */
  lemma AssignmentLineVersion(n: int)
    ensures Text.Contains(AssignmentLine(n), Prefix)
    ensures VersionOf(AssignmentLine(n)) == Success(n)
  {
    var d := Text.IntToString(n);
    var line := AssignmentLine(n);
    assert Prefix <= line;
    assert '=' !in d by {
      if n >= 0 {
        assert Text.AllDigits(d);
      } else {
        assert d == [d[0]] + d[1..];
        assert Text.AllDigits(d[1..]);
      }
    }
    var rest := " " + d + "\n";
    assert line == "VNU " + ['='] + rest;
    Text.SecondFieldAfterOnly("VNU ", '=', rest);
    Text.ParseIntToString(" ", n, "\n");
  }

  /** One candidate line rewritten: it keeps naming the prefix and now
      assigns one more than before; the exceptions of `VersionOf` propagate. */
  function RewriteLine(line: string): (r: Result<string, PyError>)
    ensures r.Success? <==> VersionOf(line).Success?
    ensures r.Failure? ==> r.error == VersionOf(line).error
    ensures r.Success? ==> Text.Contains(r.value, Prefix)
    ensures r.Success? ==> VersionOf(r.value) == Success(VersionOf(line).value + 1)
  {
    var v := VersionOf(line);
    if v.Failure? then Failure(v.error)
    else Success(NextAssignment(v.value))
  }

  /** The line written back for a version `n` read from the file. */
  function NextAssignment(n: int): (r: string)
    ensures r == AssignmentLine(n + 1)
    ensures Text.Contains(r, Prefix) && VersionOf(r) == Success(n + 1)
  {
    AssignmentLineVersion(n + 1);
    AssignmentLine(n + 1)
  }

  /** What happens to the line at 1-based `row`. */
  function Step(row: nat, line: string): Result<string, PyError> {
    if IsCandidate(row, line) then RewriteLine(line) else Success(line)
  }

  /** The loop from the line at 1-based `row` on. The first failing line
      stops it with that line's exception. */
  function RewriteFrom(lines: seq<string>, row: nat): (r: Result<seq<string>, PyError>)
    ensures r.Success? <==> forall i :: 0 <= i < |lines| ==> Step(row + i, lines[i]).Success?
    ensures r.Success? ==> |r.value| == |lines|
    ensures r.Success? ==> forall i :: 0 <= i < |lines| ==> Step(row + i, lines[i]) == Success(r.value[i])
    ensures r.Failure? ==> exists i :: 0 <= i < |lines| && Step(row + i, lines[i]) == Failure(r.error) &&
                                       forall j :: 0 <= j < i ==> Step(row + j, lines[j]).Success?
    decreases |lines|
  {
    if |lines| == 0 then Success([])
    else
      var head := Step(row, lines[0]);
      var tail := RewriteFrom(lines[1..], row + 1);
      assert forall i :: 1 <= i < |lines| ==> lines[i] == lines[1..][i - 1] && row + i == (row + 1) + (i - 1);
      if head.Failure? then Failure(head.error)
      else if tail.Failure? then Failure(tail.error)
      else Success([head.value] + tail.value)
  }

  /** `change_version()` on the lines of `setup.py`: the same number of lines
      in the same order; a candidate line becomes an assignment of its
      version plus one; every other line is copied verbatim; the run fails
      exactly when some candidate's version cannot be read. */
  function Bump(lines: seq<string>): (r: Result<seq<string>, PyError>)
    ensures r.Success? <==> forall i :: 0 <= i < |lines| && IsCandidate(i + 1, lines[i]) ==> VersionOf(lines[i]).Success?
    ensures r.Success? ==> |r.value| == |lines|
    ensures r.Success? ==> forall i :: 0 <= i < |lines| && IsCandidate(i + 1, lines[i]) ==>
      r.value[i] == AssignmentLine(VersionOf(lines[i]).value + 1)
    ensures r.Success? ==> forall i :: 0 <= i < |lines| && !IsCandidate(i + 1, lines[i]) ==> r.value[i] == lines[i]
    ensures r.Success? ==> forall i :: 4 <= i < |lines| ==> r.value[i] == lines[i]
    ensures (forall i :: 0 <= i < |lines| ==> !IsCandidate(i + 1, lines[i])) ==> r == Success(lines)
    ensures r.Failure? ==> exists i :: 0 <= i < |lines| && IsCandidate(i + 1, lines[i]) &&
                                       VersionOf(lines[i]) == Failure(r.error) &&
                                       forall j :: 0 <= j < i && IsCandidate(j + 1, lines[j]) ==> VersionOf(lines[j]).Success?
  {
    var r := RewriteFrom(lines, 1);
    if r.Success? then
      assert forall i :: 0 <= i < |lines| ==> lines[i] == lines[i] && 1 + i == i + 1;
      assert (forall i :: 0 <= i < |lines| ==> !IsCandidate(i + 1, lines[i])) ==> r.value == lines;
      r
    else
      r
  }

  /** The run stops at the first candidate it cannot read: a first line
      naming the prefix without any `=` raises `IndexError`, whatever follows. */
  lemma FirstRowUnreadable(lines: seq<string>)
    requires |lines| > 0 && Text.Contains(lines[0], Prefix) && '=' !in lines[0]
    ensures Bump(lines) == Failure(IndexError)
  {
    assert Step(1, lines[0]) == Failure(IndexError);
  }

  /** Running the script twice raises the version by two and leaves every
      other line alone. */
  lemma {:induction false} BumpTwice(lines: seq<string>)
    requires Bump(lines).Success?
    ensures Bump(Bump(lines).value).Success?
    ensures var twice := Bump(Bump(lines).value).value;
      && |twice| == |lines|
      && forall i :: 0 <= i < |lines| ==>
           if IsCandidate(i + 1, lines[i])
           then VersionOf(twice[i]) == Success(VersionOf(lines[i]).value + 2)
           else twice[i] == lines[i]
  {
    var once := Bump(lines).value;
    forall i | 0 <= i < |lines|
      ensures IsCandidate(i + 1, once[i]) <==> IsCandidate(i + 1, lines[i])
      ensures IsCandidate(i + 1, lines[i]) ==> VersionOf(once[i]) == Success(VersionOf(lines[i]).value + 1)
    {
      if IsCandidate(i + 1, lines[i]) {
        AssignmentLineVersion(VersionOf(lines[i]).value + 1);
      }
    }
    var twice := Bump(once).value;
    forall i | 0 <= i < |lines| && IsCandidate(i + 1, lines[i])
      ensures VersionOf(twice[i]) == Success(VersionOf(lines[i]).value + 2)
    {
      AssignmentLineVersion(VersionOf(once[i]).value + 1);
    }
  }

  /** A line with a single `=` whose right-hand side, without the whitespace
      `int()` skips, starts with neither a sign nor a digit has no readable
      version. */
  lemma VersionUnreadable(lhs: string, rhs: string)
    requires '=' !in lhs && '=' !in rhs
    requires |Text.IntStrip(rhs)| > 0 && !Text.IsDigit(Text.IntStrip(rhs)[0]) && Text.IntStrip(rhs)[0] !in "+-"
    ensures VersionOf(lhs + ['='] + rhs) == Failure(ValueError)
  {
    Text.SecondFieldAfterOnly(lhs, '=', rhs);
    Text.ParseIntRejects(rhs);
  }

  /** With exactly one candidate line, which is readable, the run rewrites
      that line and only that line. */
  lemma OneCandidate(lines: seq<string>, k: nat)
    requires k < |lines| && IsCandidate(k + 1, lines[k]) && VersionOf(lines[k]).Success?
    requires forall i :: 0 <= i < |lines| && i != k ==> !IsCandidate(i + 1, lines[i])
    ensures Bump(lines) == Success(lines[k := AssignmentLine(VersionOf(lines[k]).value + 1)])
  {
    var target := lines[k := AssignmentLine(VersionOf(lines[k]).value + 1)];
    forall i | 0 <= i < |lines|
      ensures Step(i + 1, lines[i]) == Success(target[i])
    {
      if i == k {
      } else {
      }
    }
    var out := Bump(lines).value;
    assert out == target;
  }

  /** The layout of this repository's `setup.py`: three lines without the
      prefix, the assignment in row 4, then anything at all, such as row 5's
      f-string that mentions `VNU` but has no readable version. Only row 4
      changes, and nothing after it can make the run fail. */
  lemma LaterRowsCopied(lines: seq<string>, n: int)
    requires |lines| >= 4 && lines[3] == AssignmentLine(n)
    requires forall i :: 0 <= i < 3 ==> !Text.Contains(lines[i], Prefix)
    ensures Bump(lines) == Success(lines[3 := AssignmentLine(n + 1)])
  {
    AssignmentLineVersion(n);
    assert forall i :: 0 <= i < |lines| && i != 3 ==> !IsCandidate(i + 1, lines[i]);
    OneCandidate(lines, 3);
  }
}

=== FILE: filesize.dfy ===
/**
 `FileUtil.get_file_size`: the byte total of a file or of a directory's
 direct entries, and its rendering in one of the 1024-based bands.
 */
module FileSize {
  import opened Wrappers

  /** `bu` in the source. */
  const Base: nat := 1024

  /** `bu ** k`. */
  function Pow(k: nat): (p: nat)
    ensures p >= 1
  {
    if k == 0 then 1 else Base * Pow(k - 1)
  }

  lemma {:induction false} PowStrictlyIncreasing(j: nat, k: nat)
    requires j < k
    ensures Pow(j) < Pow(k)
    decreases k
  {
    if j < k - 1 {
      PowStrictlyIncreasing(j, k - 1);
    }
  }

  /** The unit of band `k`. */
  function Unit(k: nat): string
    requires 1 <= k <= 4
  {
    if k == 1 then "KB" else if k == 2 then "MB" else if k == 3 then "GB" else "TB"
  }

  /** The size falls in band `k`: `bu**k <= size < bu**(k+1)`. */
  predicate InBand(size: nat, k: nat) {
    Pow(k) <= size < Pow(k + 1)
  }

  /** What `get_file_size` returns: the literal `f'{bu}B'`, a quotient
      (`round(size / bu**k, 3)` before rounding) with its unit, or the raw
      integer when no branch fires. */
  datatype Label = Literal(text: string) | Scaled(quotient: real, unit: string) | Raw(bytes: nat)

  /** The formatting chain at the end of `get_file_size`. */
  function Format(size: nat): (r: Label)
    ensures size < Base <==> r == Literal("1024B")
    ensures r.Raw? <==> size >= Pow(5)
    ensures r.Raw? ==> r.bytes == size
    ensures r.Scaled? ==> exists k :: 1 <= k <= 4 && InBand(size, k) && r.unit == Unit(k)
                                      && r.quotient == size as real / Pow(k) as real
  {
    if size < Base then Literal("1024B")
    else if size < Pow(2) then Scaled(size as real / Pow(1) as real, Unit(1))
    else if size < Pow(3) then Scaled(size as real / Pow(2) as real, Unit(2))
    else if size < Pow(4) then Scaled(size as real / Pow(3) as real, Unit(3))
    else if size < Pow(5) then Scaled(size as real / Pow(4) as real, Unit(4))
    else Raw(size)
  }

  /** Between 1 KB and 1024 TB exactly one band holds the size, and `Format`
      uses it. */
  lemma BandUnique(size: nat, j: nat, k: nat)
    requires 1 <= j <= 4 && 1 <= k <= 4
    requires InBand(size, j) && InBand(size, k)
    ensures j == k
  {
    if j < k {
      PowStrictlyIncreasing(j, k);
      if j + 1 < k { PowStrictlyIncreasing(j + 1, k); }
    } else if k < j {
      PowStrictlyIncreasing(k, j);
      if k + 1 < j { PowStrictlyIncreasing(k + 1, j); }
    }
  }

  lemma BandExists(size: nat)
    requires Base <= size < Pow(5)
    ensures exists k :: 1 <= k <= 4 && InBand(size, k)
  {
    if size < Pow(2) { assert InBand(size, 1); }
    else if size < Pow(3) { assert InBand(size, 2); }
    else if size < Pow(4) { assert InBand(size, 3); }
    else { assert InBand(size, 4); }
  }

  /** In band `k` the unrounded quotient lies in [1, 1024). */
  lemma QuotientInRange(size: nat, k: nat)
    requires 1 <= k <= 4 && InBand(size, k)
    ensures 1.0 <= size as real / Pow(k) as real < Base as real
  {
    assert Pow(k + 1) == Base * Pow(k);
    DivBounds(size as real, Pow(k) as real, Base as real);
  }

  lemma DivBounds(x: real, p: real, hi: real)
    requires p > 0.0 && p <= x < hi * p
    ensures 1.0 <= x / p < hi
  {
    var q := x / p;
    assert x == q * p;
    assert (q - 1.0) * p >= 0.0;
    assert (hi - q) * p > 0.0;
  }

  /** Every size in [1024, 1024**5) gets a scaled label whose unit is the
      band's and whose quotient lies in [1, 1024). */
  lemma ScaledBand(size: nat, k: nat)
    requires 1 <= k <= 4 && InBand(size, k)
    ensures Format(size).Scaled?
    ensures Format(size).unit == Unit(k)
    ensures 1.0 <= Format(size).quotient < Base as real
  {
    PowStrictlyIncreasing(k, 5);
    if k < 4 { PowStrictlyIncreasing(k + 1, 5); }
    assert Pow(1) == Base;
    var r := Format(size);
    var j :| 1 <= j <= 4 && InBand(size, j) && r.unit == Unit(j) && r.quotient == size as real / Pow(j) as real;
    BandUnique(size, j, k);
    QuotientInRange(size, k);
  }

  /** A directory entry as `os.path.getsize` sees it: a file has its length,
      a directory only the size of its own inode, whatever it contains. */
  datatype Node = File(size: nat) | Dir(size: nat, entries: seq<Node>)

  function GetSize(n: Node): nat {
    n.size
  }

  /** Sum of `getsize` over a list of entries. */
  function SumSizes(entries: seq<Node>): nat {
    if |entries| == 0 then 0 else SumSizes(entries[..|entries| - 1]) + GetSize(entries[|entries| - 1])
  }

  /** The `res` accumulated before formatting; `None` is a path that is
      neither a directory nor a file. */
  function Total(path: Option<Node>): nat {
    match path
    case None => 0
    case Some(File(size)) => size
    case Some(Dir(_, entries)) => SumSizes(entries)
  }

  /** `FileUtil.get_file_size(filepath)`: the loop over `os.listdir`, then
      the formatting chain. */
  method GetFileSize(path: Option<Node>) returns (r: Label)
    ensures r == Format(Total(path))
  {
    var res: nat := 0;
    match path {
      case None =>
      case Some(File(size)) =>
        res := res + size;
      case Some(Dir(_, entries)) =>
        var i := 0;
        while i < |entries|
          invariant 0 <= i <= |entries|
          invariant res == SumSizes(entries[..i])
        {
          assert entries[..i + 1][..i] == entries[..i];
          res := res + GetSize(entries[i]);
          i := i + 1;
        }
        assert entries[..|entries|] == entries;
    }
    r := Format(res);
  }

  /** The directory total does not recurse: only the entries' own sizes
      count, so directories whose entries have equal sizes have equal totals
      whatever lies below those entries. */
  lemma {:induction false} TotalIgnoresNesting(a: seq<Node>, b: seq<Node>)
    requires |a| == |b|
    requires forall k :: 0 <= k < |a| ==> GetSize(a[k]) == GetSize(b[k])
    ensures SumSizes(a) == SumSizes(b)
    decreases |a|
  {
    if |a| > 0 {
      TotalIgnoresNesting(a[..|a| - 1], b[..|b| - 1]);
    }
  }

  /** A sub-directory contributes its own size, not that of its contents. */
  lemma NestedContentNotCounted(own: nat, inner: seq<Node>, d: nat)
    ensures Total(Some(Dir(d, [Dir(own, inner)]))) == own
  {
    var es := [Dir(own, inner)];
    assert es[..0] == [];
    assert SumSizes(es) == SumSizes(es[..0]) + GetSize(es[0]);
  }
}

=== FILE: fingerprint.dfy ===
/**
 `UniUtil.get_uuid(params)`: the configuration fingerprint. The items are
 sorted by key (a stable sort under Python's string order), each item is
 rendered as `str((key, value))`, and the renderings are joined with `'|'`.
 The resulting canonical string is handed to `uuid3`, an MD5-based hash
 that is a parameter of the model.
 */
module Fingerprint {
  import Text
  import opened Values

  type Item = (string, Value)

  /** Python's `a <= b` on strings: lexicographic by code point. */
  predicate LexLe(a: string, b: string)
    decreases |a|
  {
    |a| == 0 || (|b| > 0 && (a[0] < b[0] || (a[0] == b[0] && LexLe(a[1..], b[1..]))))
  }

  lemma {:induction false} LexTotal(a: string, b: string)
    ensures LexLe(a, b) || LexLe(b, a)
    decreases |a|
  {
    if |a| > 0 && |b| > 0 && a[0] == b[0] {
      LexTotal(a[1..], b[1..]);
    }
  }

  lemma {:induction false} LexAntisymmetric(a: string, b: string)
    requires LexLe(a, b) && LexLe(b, a)
    ensures a == b
    decreases |a|
  {
    if |a| > 0 {
      LexAntisymmetric(a[1..], b[1..]);
      assert a == [a[0]] + a[1..];
      assert b == [b[0]] + b[1..];
    }
  }

  lemma {:induction false} LexTransitive(a: string, b: string, c: string)
    requires LexLe(a, b) && LexLe(b, c)
    ensures LexLe(a, c)
    decreases |a|
  {
    if |a| > 0 && a[0] == b[0] && b[0] == c[0] {
      LexTransitive(a[1..], b[1..], c[1..]);
    }
  }

  /** Items ordered by key, as `sorted(params.items(), key=lambda x: x[0])` leaves them. */
  predicate SortedByKey(s: seq<Item>) {
    forall i, j :: 0 <= i < j < |s| ==> LexLe(s[i].0, s[j].0)
  }

  /** Insert `e` before the first item whose key is not below it. */
  function Insert(e: Item, s: seq<Item>): (r: seq<Item>)
    requires SortedByKey(s)
    ensures SortedByKey(r)
    ensures multiset(r) == multiset(s) + multiset{e}
  {
    if |s| == 0 then [e]
    else if LexLe(e.0, s[0].0) then
      InsertFront(e, s);
      [e] + s
    else
      var rest := Insert(e, s[1..]);
      assert s == [s[0]] + s[1..];
      InsertBehind(e, s, rest);
      [s[0]] + rest
  }

  lemma InsertFront(e: Item, s: seq<Item>)
    requires SortedByKey(s) && |s| > 0 && LexLe(e.0, s[0].0)
    ensures SortedByKey([e] + s)
  {
    forall j | 0 <= j < |s| ensures LexLe(e.0, s[j].0) {
      if j > 0 { LexTransitive(e.0, s[0].0, s[j].0); }
    }
    var r := [e] + s;
    forall i, j | 0 <= i < j < |r| ensures LexLe(r[i].0, r[j].0) {
      if i > 0 { assert r[i] == s[i - 1] && r[j] == s[j - 1]; }
      else { assert r[j] == s[j - 1]; }
    }
  }

  lemma InsertBehind(e: Item, s: seq<Item>, rest: seq<Item>)
    requires SortedByKey(s) && |s| > 0 && !LexLe(e.0, s[0].0)
    requires SortedByKey(rest) && multiset(rest) == multiset(s[1..]) + multiset{e}
    ensures SortedByKey([s[0]] + rest)
  {
    LexTotal(e.0, s[0].0);
    forall x | x in rest ensures LexLe(s[0].0, x.0) {
      assert x in multiset(rest);
      if x != e {
        assert x in s[1..];
        var k :| 1 <= k < |s| && s[k] == x;
      }
    }
    var r := [s[0]] + rest;
    forall i, j | 0 <= i < j < |r| ensures LexLe(r[i].0, r[j].0) {
      assert r[j] == rest[j - 1];
      if i > 0 { assert r[i] == rest[i - 1]; }
    }
  }

  /** The stable key sort of the items. */
  function Sort(c: Config): (r: seq<Item>)
    ensures SortedByKey(r)
    ensures multiset(r) == multiset(c)
  {
    if |c| == 0 then []
    else
      assert c == [c[0]] + c[1..];
      Insert(c[0], Sort(c[1..]))
  }

  /** Sorting keeps the keys distinct. */
  lemma {:induction false} SortDistinct(c: Config)
    requires DistinctKeys(c)
    ensures DistinctKeys(Sort(c))
    decreases |c|
  {
    if |c| > 0 {
      var tail := Sort(c[1..]);
      SortDistinct(c[1..]);
      forall x | x in tail ensures x.0 != c[0].0 {
        assert x in multiset(c[1..]);
      }
      InsertDistinct(c[0], tail);
    }
  }

  lemma {:induction false} InsertDistinct(e: Item, s: seq<Item>)
    requires SortedByKey(s) && DistinctKeys(s)
    requires forall x :: x in s ==> x.0 != e.0
    ensures DistinctKeys(Insert(e, s))
    decreases |s|
  {
    if |s| > 0 && !LexLe(e.0, s[0].0) {
      InsertDistinct(e, s[1..]);
      var rest := Insert(e, s[1..]);
      forall x | x in rest ensures x.0 != s[0].0 {
        assert x in multiset(rest);
      }
    }
  }

  /** Two key-sorted sequences with distinct keys and the same items are equal:
      the items alone fix the sorted order. */
  lemma {:induction false} SortedUnique(s1: seq<Item>, s2: seq<Item>)
    requires SortedByKey(s1) && DistinctKeys(s1)
    requires SortedByKey(s2) && DistinctKeys(s2)
    requires forall e :: e in s1 <==> e in s2
    ensures s1 == s2
    decreases |s1|
  {
    assert |s1| > 0 ==> s1[0] in s2;
    assert |s2| > 0 ==> s2[0] in s1;
    if |s1| > 0 {
      assert s1[0] in s2;
      assert s2[0] in s1;
      var i :| 0 <= i < |s2| && s2[i] == s1[0];
      var j :| 0 <= j < |s1| && s1[j] == s2[0];
      LexTotal(s1[0].0, s1[0].0);
      assert LexLe(s2[0].0, s1[0].0) by {
        if i > 0 { assert LexLe(s2[0].0, s2[i].0); }
      }
      assert LexLe(s1[0].0, s2[0].0) by {
        if j > 0 { assert LexLe(s1[0].0, s1[j].0); }
      }
      LexAntisymmetric(s1[0].0, s2[0].0);
      assert i == 0;
      forall e ensures e in s1[1..] <==> e in s2[1..] {
        if e in s1[1..] {
          var k :| 0 <= k < |s1[1..]| && s1[1..][k] == e;
          assert s1[k + 1] == e && e.0 != s1[0].0;
          assert e in s2;
          var m :| 0 <= m < |s2| && s2[m] == e;
          assert m != 0;
          assert s2[1..][m - 1] == e;
        }
        if e in s2[1..] {
          var k :| 0 <= k < |s2[1..]| && s2[1..][k] == e;
          assert s2[k + 1] == e && e.0 != s2[0].0;
          assert e in s1;
          var m :| 0 <= m < |s1| && s1[m] == e;
          assert m != 0;
          assert s1[1..][m - 1] == e;
        }
      }
      SortedUnique(s1[1..], s2[1..]);
      assert s1 == [s1[0]] + s1[1..];
      assert s2 == [s2[0]] + s2[1..];
    }
  }

  /** `str(p)` for one item: the tuple `(key, value)` rendered with reprs. */
  function RenderItem(e: Item): string {
    "(" + Repr(Str(e.0)) + ", " + Repr(e.1) + ")"
  }

  function RenderAll(s: seq<Item>): (r: seq<string>)
    ensures |r| == |s|
    ensures forall k :: 0 <= k < |s| ==> r[k] == RenderItem(s[k])
  {
    if |s| == 0 then [] else [RenderItem(s[0])] + RenderAll(s[1..])
  }

  /** The string `get_uuid` hashes: `'|'.join(str(p) for p in sorted items)`. */
  function Canonical(c: Config): (r: string)
    ensures |c| == 0 <==> |r| == 0
    ensures |c| > 0 ==> r[0] == '('
    ensures |c| == 1 ==> r == RenderItem(c[0])
  {
    var s := Sort(c);
    assert |c| == 0 <==> |s| == 0 by {
      assert |multiset(s)| == |multiset(c)|;
    }
    assert |c| == 1 ==> s == [c[0]] by {
      if |c| == 1 {
        assert c[0] in multiset(s);
      }
    }
    Text.Join(RenderAll(s), "|")
  }

  /** `get_uuid(conf)`: the hash of the canonical string. */
  function Id(hash: string -> string, c: Config): string {
    hash(Canonical(c))
  }

  /** Two dicts with the same items, in any insertion order, give the same
      canonical string. */
  lemma CanonicalOrderIndependent(c1: Config, c2: Config)
    requires DistinctKeys(c1) && DistinctKeys(c2)
    requires SameItems(c1, c2)
    ensures Canonical(c1) == Canonical(c2)
  {
    var s1, s2 := Sort(c1), Sort(c2);
    SortDistinct(c1);
    SortDistinct(c2);
    forall e ensures e in s1 <==> e in s2 {
      calc {
        e in s1;
        e in multiset(s1);
        e in multiset(c1);
        e in c1;
        e in c2;
        e in multiset(c2);
        e in multiset(s2);
      }
    }
    SortedUnique(s1, s2);
  }

  /** ... and therefore the same fingerprint, whatever the hash. */
  lemma IdOrderIndependent(hash: string -> string, c1: Config, c2: Config)
    requires DistinctKeys(c1) && DistinctKeys(c2)
    requires SameItems(c1, c2)
    ensures Id(hash, c1) == Id(hash, c2)
  {
    CanonicalOrderIndependent(c1, c2);
  }

  /** The canonical string lists the items in key order: a single item is
      rendered alone, and inserting keys in the reverse order changes nothing. */
  lemma CanonicalTwoItems(k1: string, v1: Value, k2: string, v2: Value)
    requires LexLe(k1, k2) && k1 != k2
    ensures Canonical([(k2, v2), (k1, v1)]) == RenderItem((k1, v1)) + "|" + RenderItem((k2, v2))
    ensures Canonical([(k1, v1), (k2, v2)]) == Canonical([(k2, v2), (k1, v1)])
  {
    var c := [(k2, v2), (k1, v1)];
    assert c[1..] == [(k1, v1)];
    assert Sort([(k1, v1)]) == [(k1, v1)] by {
      assert [(k1, v1)][1..] == [];
    }
    if LexLe(k2, k1) {
      LexAntisymmetric(k1, k2);
    }
    assert Sort(c) == [(k1, v1), (k2, v2)];
    assert RenderAll([(k1, v1), (k2, v2)]) == [RenderItem((k1, v1)), RenderItem((k2, v2))];
    CanonicalOrderIndependent([(k1, v1), (k2, v2)], c);
  }
}

=== FILE: influx.dfy ===
/**
 `InfluxUtil.write_data`: shaping rows `(time, tid, v1, v2, ...)` into the
 point dicts handed to the client's `write_points`, after `_init`.
 */
module Influx {
  import opened Wrappers
  import opened Values
  import Text
  import Cache

  /** The fixed offset appended to every timestamp. */
  const TimeOffset := "+08:00"

  /** One point dict: `measurement`, `time`, `tags` and `fields` (the field
      dict in insertion order). */
  datatype Point = Point(measurement: string, time: string, tags: map<string, string>, fields: seq<(string, Value)>)

  /** The field name `f'v{i}'`. */
  function FieldName(i: nat): string {
    "v" + Text.IntToString(i)
  }

  /** Field names for different positions differ, so no field overwrites another. */
  lemma FieldNamesDistinct(i: nat, j: nat)
    requires i != j
    ensures FieldName(i) != FieldName(j)
  {
    assert FieldName(i)[1..] == Text.IntToString(i);
    assert FieldName(j)[1..] == Text.IntToString(j);
    Text.IntToStringInjective(i, j);
  }

  /** `round(v, 3)` on the value kinds of the model: an integer stays as it
      is, a boolean becomes the integer 0 or 1, and a string or `None` raises
      `TypeError`. */
  function Round(v: Value): (r: Result<Value, PyError>)
    ensures r.Success? <==> v.Int? || v.Bool?
    ensures r.Success? ==> r.value.Int?
    ensures v.Int? ==> r == Success(v)
    ensures v.Bool? ==> r == Success(Int(if v.b then 1 else 0))
    ensures r.Failure? ==> r.error == TypeError
  {
    match v
    case Int(i) => Success(Int(i))
    case Bool(b) => Success(Int(if b then 1 else 0))
    case _ => Failure(TypeError)
  }

  /** Every value can be rounded. */
  predicate Numeric(values: seq<Value>) {
    forall j :: 0 <= j < |values| ==> Round(values[j]).Success?
  }

  lemma NumericCons(values: seq<Value>)
    requires |values| > 0
    ensures Numeric(values) <==> Round(values[0]).Success? && Numeric(values[1..])
  {
    assert forall j :: 1 <= j < |values| ==> values[j] == values[1..][j - 1];
  }

  /** `round(v, 3)` over a list of values, stopping at the first one that
      raises. */
  function RoundAll(values: seq<Value>): (r: Result<seq<Value>, PyError>)
    ensures r.Success? <==> Numeric(values)
    ensures r.Success? ==> |r.value| == |values|
    ensures r.Success? ==> forall j :: 0 <= j < |values| ==> r.value[j] == Round(values[j]).value
    ensures r.Failure? ==> r.error == TypeError
  {
    if |values| == 0 then Success([])
    else
      NumericCons(values);
      match Round(values[0])
      case Failure(e) => Failure(e)
      case Success(v) =>
        match RoundAll(values[1..])
        case Failure(e) => Failure(e)
        case Success(vs) => Success([v] + vs)
  }

  /** `(f'v{i}', v)` for `i, v in enumerate(values, first)`. */
  function Named(values: seq<Value>, first: nat): (r: seq<(string, Value)>)
    ensures |r| == |values|
    ensures forall j :: 0 <= j < |values| ==> r[j] == (FieldName(first + j), values[j])
  {
    if |values| == 0 then [] else [(FieldName(first), values[0])] + Named(values[1..], first + 1)
  }

  /** The field loop over `enumerate(values, first)`: `(f'v{i}', round(v, 3))`
      pairs in order, or the `TypeError` of the first value that cannot be
      rounded. */
  function Fields(values: seq<Value>, first: nat): (r: Result<seq<(string, Value)>, PyError>)
    ensures r.Success? <==> Numeric(values)
    ensures r.Success? ==> |r.value| == |values|
    ensures r.Success? ==> forall j :: 0 <= j < |values| ==> r.value[j] == (FieldName(first + j), Round(values[j]).value)
    ensures r.Failure? ==> r.error == TypeError
  {
    match RoundAll(values)
    case Failure(e) => Failure(e)
    case Success(vs) => Success(Named(vs, first))
  }

  /** `str(t).replace(' ', 'T') + '+08:00'`. */
  function TimeText(t: Value): (r: string)
    ensures |r| == |StrOf(t)| + |TimeOffset|
    ensures forall k :: 0 <= k < |StrOf(t)| ==> r[k] == (if StrOf(t)[k] == ' ' then 'T' else StrOf(t)[k])
    ensures r[|StrOf(t)|..] == TimeOffset
    ensures ' ' !in r
  {
    var r := Text.ReplaceChar(StrOf(t), ' ', 'T') + TimeOffset;
    assert r[|StrOf(t)|..] == TimeOffset;
    r
  }

  /** The point for one row. The fields are built first, from `row[2:]`,
      so a value that cannot be rounded raises `TypeError`; then `data[0]`
      and `data[1]` are read, and a row shorter than two (which has no
      fields) raises `IndexError`. */
  function Shape(tbl: string, row: seq<Value>): (r: Result<Point, PyError>)
    ensures r.Success? <==> |row| >= 2 && Numeric(row[2..])
    ensures r.Failure? ==> r.error == (if |row| < 2 then IndexError else TypeError)
    ensures r.Success? ==>
      && r.value.measurement == tbl
      && r.value.time == TimeText(row[0])
      && r.value.tags == map["tid" := StrOf(row[1])]
      && |r.value.fields| == |row| - 2
      && forall j :: 0 <= j < |row| - 2 ==> r.value.fields[j] == (FieldName(j + 1), Round(row[j + 2]).value)
  {
    if |row| < 2 then Failure(IndexError)
    else match Fields(row[2..], 1)
      case Failure(e) => Failure(e)
      case Success(fs) => Success(Point(tbl, TimeText(row[0]), map["tid" := StrOf(row[1])], fs))
  }

  /** The loop over `data_list`: one point per row, in order, or the error
      of the first row that cannot be shaped. */
  function ShapeAll(tbl: string, rows: seq<seq<Value>>): (r: Result<seq<Point>, PyError>)
    ensures r.Success? <==> forall i :: 0 <= i < |rows| ==> Shape(tbl, rows[i]).Success?
    ensures r.Success? ==> |r.value| == |rows|
    ensures r.Success? ==> forall i :: 0 <= i < |rows| ==> Shape(tbl, rows[i]) == Success(r.value[i])
    ensures r.Failure? ==> exists i :: 0 <= i < |rows| && Shape(tbl, rows[i]) == Failure(r.error) &&
                                       forall j :: 0 <= j < i ==> Shape(tbl, rows[j]).Success?
  {
    MapUntilFailure(row => Shape(tbl, row), rows)
  }


  /** A row whose value is a string or `None` cannot be written: `round`
      raises before the point is built. */
  lemma NonNumericFieldRaises(tbl: string, time: Value, tid: Value, v: Value)
    requires !v.Int? && !v.Bool?
    ensures Shape(tbl, [time, tid, v]) == Failure(TypeError)
  {
    assert [time, tid, v][2..] == [v];
  }

  /** `InfluxUtil.write_data(conf, tbl, data_list)`: `_init`, shape the rows,
      then `write_points` on `CONN`, which raises `AttributeError` when no
      connection was ever made. The result is the list sent to the client. */
  function WriteData<H>(s: Cache.State<H>, hash: string -> string, conf: Config, o: Cache.Outcome<H>,
                        tbl: string, rows: seq<seq<Value>>): (r: (Cache.State<H>, Result<seq<Point>, PyError>))
    ensures r.0 == Cache.Init(s, hash, conf, o)
    ensures r.1.Success? <==> ShapeAll(tbl, rows).Success? && r.0.conn.Some?
    ensures r.1.Success? ==> r.1 == ShapeAll(tbl, rows)
    ensures r.1.Failure? ==> r.1.error == (if ShapeAll(tbl, rows).Failure? then ShapeAll(tbl, rows).error else AttributeError)
  {
    var s1 := Cache.Init(s, hash, conf, o);
    match ShapeAll(tbl, rows)
    case Failure(e) => (s1, Failure(e))
    case Success(points) =>
      if s1.conn.None? then (s1, Failure(AttributeError)) else (s1, Success(points))
  }
}

=== FILE: minio.dfy ===
/**
 `MinioUtil`: the download URL returned by `upload`, the bucket policy
 template and the decision in `create_bucket`.
 */
module Minio {
  import opened Wrappers
  import opened Values
  import Cache

  /** `f'http://{endpoint}/{bucket}/{filename}'`. */
  function UploadUrl(endpoint: string, bucket: string, filename: string): (r: string)
    ensures |r| == 9 + |endpoint| + |bucket| + |filename|
    ensures "http://" <= r
    ensures r[7..7 + |endpoint|] == endpoint && r[7 + |endpoint|] == '/'
    ensures r[|r| - |filename|..] == filename && r[|r| - |filename| - 1] == '/'
    ensures r[8 + |endpoint|..|r| - |filename| - 1] == bucket
  {
    var r := "http://" + endpoint + "/" + bucket + "/" + filename;
    assert r[7..7 + |endpoint|] == endpoint;
    assert r[8 + |endpoint|..|r| - |filename| - 1] == bucket;
    assert r[|r| - |filename|..] == filename;
    r
  }

  /** Splitting at the first slash: a slash-free prefix is determined by the string. */
  lemma SplitAtSlash(x: string, y: string, x': string, y': string)
    requires '/' !in x && '/' !in x'
    requires x + "/" + y == x' + "/" + y'
    ensures x == x' && y == y'
  {
    var s := x + "/" + y;
    assert s[|x|] == '/';
    assert (x' + "/" + y')[|x'|] == '/';
    assert forall k :: 0 <= k < |x| ==> s[k] == x[k];
    assert forall k :: 0 <= k < |x'| ==> s[k] == x'[k];
    assert |x| == |x'|;
    assert x == s[..|x|] && x' == s[..|x'|];
    assert y == s[|x| + 1..] && y' == s[|x'| + 1..];
  }

  /** The URL names the object uniquely: when endpoint and bucket hold no
      slash, different uploads give different URLs. */
  lemma UploadUrlInjective(e1: string, b1: string, f1: string, e2: string, b2: string, f2: string)
    requires '/' !in e1 && '/' !in b1 && '/' !in e2 && '/' !in b2
    requires UploadUrl(e1, b1, f1) == UploadUrl(e2, b2, f2)
    ensures e1 == e2 && b1 == b2 && f1 == f2
  {
    var p := "http://";
    assert UploadUrl(e1, b1, f1) == p + (e1 + "/" + (b1 + "/" + f1));
    assert UploadUrl(e2, b2, f2) == p + (e2 + "/" + (b2 + "/" + f2));
    assert e1 + "/" + (b1 + "/" + f1) == UploadUrl(e1, b1, f1)[|p|..];
    assert e2 + "/" + (b2 + "/" + f2) == UploadUrl(e2, b2, f2)[|p|..];
    SplitAtSlash(e1, b1 + "/" + f1, e2, b2 + "/" + f2);
    SplitAtSlash(b1, f1, b2, f2);
  }

  /** `MinioUtil.upload(conf, bucket, filepath, filename)`: `_init`, read
      `conf['endpoint']` (`KeyError` when absent), `fput_object` on `CONN`
      (`AttributeError` when no connection was ever made), then the URL. */
  function Upload<H>(s: Cache.State<H>, hash: string -> string, conf: Config, o: Cache.Outcome<H>,
                     bucket: string, filename: string): (r: (Cache.State<H>, Result<string, PyError>))
    ensures r.0 == Cache.Init(s, hash, conf, o)
    ensures r.1.Success? <==> Lookup(conf, "endpoint").Some? && r.0.conn.Some?
    ensures r.1.Success? ==> r.1.value == UploadUrl(StrOf(Lookup(conf, "endpoint").value), bucket, filename)
    ensures r.1.Failure? ==> r.1.error == (if Lookup(conf, "endpoint").None? then KeyError else AttributeError)
  {
    var s1 := Cache.Init(s, hash, conf, o);
    match Lookup(conf, "endpoint")
    case None => (s1, Failure(KeyError))
    case Some(endpoint) =>
      if s1.conn.None? then (s1, Failure(AttributeError))
      else (s1, Success(UploadUrl(StrOf(endpoint), bucket, filename)))
  }

  const PolicyHead := "{\"Version\":\"2012-10-17\",\"Statement\":[{\"Effect\":\"Allow\",\"Principal\":{\"AWS\":[\"*\"]},\"Action\":[\"s3:GetBucketLocation\",\"s3:ListBucket\"],\"Resource\":[\"arn:aws:s3:::"
  const PolicyMid := "\"]},{\"Effect\":\"Allow\",\"Principal\":{\"AWS\":[\"*\"]},\"Action\":[\"s3:GetObject\"],\"Resource\":[\"arn:aws:s3:::"
  const PolicyTail := "/*\"]}]}"

  /** Where each of five concatenated pieces sits in the result. */
  lemma FivePieces(a: string, b: string, c: string, d: string, e: string)
    ensures var r := a + b + c + d + e;
      && r[..|a|] == a
      && r[|a|..|a| + |b|] == b
      && r[|a| + |b|..|a| + |b| + |c|] == c
      && r[|a| + |b| + |c|..|r| - |e|] == d
      && r[|r| - |e|..] == e
  {
  }

  /** `POLICY % (bucket, bucket)`: anonymous read of the bucket and its objects. */
  function Policy(bucket: string): (r: string)
    ensures |r| == |PolicyHead| + |PolicyMid| + |PolicyTail| + 2 * |bucket|
    ensures r[..|PolicyHead|] == PolicyHead
    ensures r[|PolicyHead|..|PolicyHead| + |bucket|] == bucket
    ensures r[|PolicyHead| + |bucket| .. |PolicyHead| + |bucket| + |PolicyMid|] == PolicyMid
    ensures r[|PolicyHead| + |bucket| + |PolicyMid|..|r| - |PolicyTail|] == bucket
    ensures r[|r| - |PolicyTail|..] == PolicyTail
  {
    FivePieces(PolicyHead, bucket, PolicyMid, bucket, PolicyTail);
    PolicyHead + bucket + PolicyMid + bucket + PolicyTail
  }

  /** Different buckets receive different policies. */
  lemma PolicyInjective(b1: string, b2: string)
    ensures Policy(b1) == Policy(b2) ==> b1 == b2
  {
    if Policy(b1) == Policy(b2) {
      assert |b1| == |b2|;
      assert Policy(b1)[|PolicyHead|..|PolicyHead| + |b1|] == b1;
      assert Policy(b2)[|PolicyHead|..|PolicyHead| + |b2|] == b2;
    }
  }

  /** A client call `create_bucket` makes on the object store. */
  datatype Action = MakeBucket(name: string) | SetPolicy(name: string, policy: string)

  /** The decision in `create_bucket` once the existence check has answered
      `present`: an existing bucket is left alone and `False` returned;
      otherwise it is made, given the policy when `isPolicy`, and `True`
      returned. */
  function CreateBucket(present: bool, bucket: string, isPolicy: bool): (r: (bool, seq<Action>))
    ensures r.0 <==> !present
    ensures present ==> r.1 == []
    ensures !present ==> 1 <= |r.1| <= 2 && r.1[0] == MakeBucket(bucket)
    ensures !present ==> (|r.1| == 2 <==> isPolicy)
    ensures !present && isPolicy ==> r.1[1] == SetPolicy(bucket, Policy(bucket))
  {
    if present then (false, [])
    else if isPolicy then (true, [MakeBucket(bucket), SetPolicy(bucket, Policy(bucket))])
    else (true, [MakeBucket(bucket)])
  }

  /** `create_bucket` as written: `exists_bucket(bucket=bucket)` omits the
      required `conf` argument, so every call raises `TypeError` after
      `_init`, before any bucket is checked, made or given a policy. */
  function CreateBucketAsWritten<H>(s: Cache.State<H>, hash: string -> string, conf: Config, o: Cache.Outcome<H>,
                                    bucket: string, isPolicy: bool): (r: (Cache.State<H>, Result<(bool, seq<Action>), PyError>))
    ensures r.0 == Cache.Init(s, hash, conf, o)
    ensures r.1 == Failure(TypeError)
  {
    (Cache.Init(s, hash, conf, o), Failure(TypeError))
  }
}

=== FILE: shell.dfy ===
/**
 `ShellUtil`: the SSH connection cache and `exec`. Unlike the other
 classes, `connect` first replaces `CONN` with a fresh, unconnected
 `SSHClient` and only then tries to open it, so a failed attempt leaves a
 client behind whose `CFID` belongs to an earlier configuration. `exec`
 closes the client after each command but keeps it cached together with
 its `CFID`.
 */
module Shell {
  import opened Wrappers
  import opened Values
  import Text
  import Fingerprint
  import Cache

  /** How far `SSHClient.connect` got, as seen by a later `exec_command`:
      the transport is open and authenticated; no transport exists (the
      socket could not be opened, or the client was closed); or a transport
      exists but the handshake or the authentication failed. */
  datatype Link = Open | NoTransport | Unauthenticated

  /** What `SSHClient.connect(**conf)` did: it succeeded; it raised before
      creating a transport (host unreachable); or it raised after creating
      one (a failed handshake or a rejected password). */
  datatype Attempt = Connected | Unreachable | Rejected

  /** The link an attempt leaves behind. */
  function LinkAfter(a: Attempt): (l: Link)
    ensures l == Open <==> a == Connected
    ensures l == NoTransport <==> a == Unreachable
  {
    match a
    case Connected => Open
    case Unreachable => NoTransport
    case Rejected => Unauthenticated
  }

  /** A `paramiko.SSHClient`: which object it is, and the state of its
      transport. */
  datatype Client<H> = Client(id: H, link: Link)

  type ShellState<H> = Cache.State<Client<H>>

  /** `ShellUtil.connect(conf)`: `CONN` becomes the new client `newId`
      whatever `SSHClient.connect` does (`a`); `CFID` moves to the new
      fingerprint only when it succeeds. */
  function Connect<H>(s: ShellState<H>, hash: string -> string, conf: Config, newId: H, a: Attempt): (r: ShellState<H>)
    ensures r.conn == Some(Client(newId, LinkAfter(a)))
    ensures a == Connected ==> Cache.Hit(r, hash, conf)
    ensures a != Connected ==> r.cfid == s.cfid
  {
    Cache.State(Some(Client(newId, LinkAfter(a))), if a == Connected then Some(Fingerprint.Id(hash, conf)) else s.cfid)
  }

  /** `ShellUtil._init(conf)`: the same rule as the other caches; the state
      of the cached client's transport is not looked at. */
  function Init<H>(s: ShellState<H>, hash: string -> string, conf: Config, newId: H, a: Attempt): (r: ShellState<H>)
    ensures Cache.Hit(s, hash, conf) ==> r == s
    ensures !Cache.Hit(s, hash, conf) ==> r == Connect(s, hash, conf, newId, a)
    ensures r.conn.Some?
  {
    if s.conn.None? then Connect(s, hash, conf, newId, a)
    else if s.cfid != Some(Fingerprint.Id(hash, conf)) then Connect(s, hash, conf, newId, a)
    else s
  }

  /** The exception `exec_command` raises on a client that is not open:
      with no transport, `self._transport.open_session()` is a call on
      `None`; an unfinished transport refuses to open a channel. */
  function ExecError(l: Link): (e: PyError)
    requires l != Open
    ensures e == AttributeError <==> l == NoTransport
    ensures e == AttributeError || e == SSHException
  {
    if l == NoTransport then AttributeError else SSHException
  }

  /** The `exec` result dict `{'sta': ..., 'res': ...}`. */
  datatype Reply = Reply(sta: int, res: string)

  const ErrorStatus := 200
  const OkStatus := 201

  /** Classify the command's output: the error text with status 200 exactly
      when it holds something other than whitespace, else the standard output
      with status 201. */
  function Classify(out: string, err: string): (r: Reply)
    ensures r.sta == ErrorStatus <==> !Text.AllSpace(err)
    ensures r.sta == ErrorStatus || r.sta == OkStatus
    ensures r.res == (if r.sta == ErrorStatus then err else out)
  {
    if |Text.Strip(err)| > 0 then Reply(ErrorStatus, err) else Reply(OkStatus, out)
  }

  /** `CONN.close()`: paramiko closes the transport and drops it; the client
      and `CFID` stay in the cache. */
  function CloseCached<H>(s: ShellState<H>): (r: ShellState<H>)
    requires s.conn.Some?
    ensures r.conn == Some(Client(s.conn.value.id, NoTransport)) && r.cfid == s.cfid
  {
    Cache.State(Some(s.conn.value.(link := NoTransport)), s.cfid)
  }

  /** `ShellUtil.exec(conf, cmd)`: after `_init`, `exec_command` on a client
      that is not open raises (`ExecError`); otherwise the command runs (its
      output `out` and error text `err` are inputs), the client is closed and
      the output classified. */
  function Exec<H>(s: ShellState<H>, hash: string -> string, conf: Config, newId: H, a: Attempt,
                   out: string, err: string): (r: (ShellState<H>, Result<Reply, PyError>))
    ensures var s1 := Init(s, hash, conf, newId, a);
      && r.0.cfid == s1.cfid
      && r.0.conn.Some? && r.0.conn.value.id == s1.conn.value.id
      && (r.1.Success? <==> s1.conn.value.link == Open)
      && (r.1.Success? ==> r.0.conn.value.link == NoTransport && r.1.value == Classify(out, err))
      && (r.1.Failure? ==> r.0 == s1 && r.1.error == ExecError(s1.conn.value.link))
  {
    var s1 := Init(s, hash, conf, newId, a);
    if s1.conn.value.link == Open then (CloseCached(s1), Success(Classify(out, err)))
    else (s1, Failure(ExecError(s1.conn.value.link)))
  }

  /** As written, a second `exec` with the same configuration finds its
      fingerprint in the cache, does not reconnect, and runs on the client the
      first call closed. */
  lemma SecondExecFails<H>(s: ShellState<H>, hash: string -> string, conf: Config,
                           f1: H, f2: H, a2: Attempt, out1: string, err1: string, out2: string, err2: string)
    requires !Cache.Hit(s, hash, conf)
    ensures Exec(s, hash, conf, f1, Connected, out1, err1).1.Success?
    ensures Exec(Exec(s, hash, conf, f1, Connected, out1, err1).0, hash, conf, f2, a2, out2, err2).1
            == Failure(AttributeError)
  {
    var s1 := Exec(s, hash, conf, f1, Connected, out1, err1).0;
    assert Cache.Hit(s1, hash, conf);
  }

  /** A failed `connect` leaves `CONN` and `CFID` disagreeing: a later call
      with the earlier configuration reuses the unconnected client and fails,
      with `AttributeError` when no transport was made and `SSHException`
      when the handshake or authentication failed. */
  lemma FailedConnectDisagrees<H>(s: ShellState<H>, hash: string -> string, c1: Config, c2: Config,
                                  newId: H, a: Attempt, f2: H, a2: Attempt, out: string, err: string)
    requires Cache.Hit(s, hash, c1)
    requires Fingerprint.Id(hash, c1) != Fingerprint.Id(hash, c2)
    requires a != Connected
    ensures var s1 := Init(s, hash, c2, newId, a);
      && s1.conn == Some(Client(newId, LinkAfter(a))) && s1.cfid == s.cfid
      && Exec(s1, hash, c1, f2, a2, out, err).1
         == Failure(if a == Unreachable then AttributeError else SSHException)
  {
  }

  /** The corrected `_init`: a cached client is reused only while it is still
      open for the same fingerprint. */
  function InitLive<H>(s: ShellState<H>, hash: string -> string, conf: Config, newId: H, a: Attempt): (r: ShellState<H>)
    ensures Cache.Hit(s, hash, conf) && s.conn.value.link == Open ==> r == s
    ensures !(Cache.Hit(s, hash, conf) && s.conn.value.link == Open) ==> r == Connect(s, hash, conf, newId, a)
    ensures a == Connected ==> Cache.Hit(r, hash, conf) && r.conn.value.link == Open
  {
    if Cache.Hit(s, hash, conf) && s.conn.value.link == Open then s
    else Connect(s, hash, conf, newId, a)
  }

  /** The corrected `exec`, built on `InitLive`. */
  function ExecFixed<H>(s: ShellState<H>, hash: string -> string, conf: Config, newId: H, a: Attempt,
                        out: string, err: string): (r: (ShellState<H>, Result<Reply, PyError>))
    ensures a == Connected ==> r.1 == Success(Classify(out, err)) && Cache.Hit(r.0, hash, conf)
    ensures r.1.Success? ==> r.0.conn.Some? && r.0.conn.value.link == NoTransport
  {
    var s1 := InitLive(s, hash, conf, newId, a);
    if s1.conn.value.link == Open then (CloseCached(s1), Success(Classify(out, err)))
    else (s1, Failure(ExecError(s1.conn.value.link)))
  }

  /** With the correction, repeated commands with the same configuration all
      run, each on a newly opened client. */
  lemma RepeatedExecSucceeds<H>(s: ShellState<H>, hash: string -> string, conf: Config,
                                f1: H, f2: H, out1: string, err1: string, out2: string, err2: string)
    ensures var (s1, r1) := ExecFixed(s, hash, conf, f1, Connected, out1, err1);
      && r1 == Success(Classify(out1, err1))
      && ExecFixed(s1, hash, conf, f2, Connected, out2, err2) == (Cache.State(Some(Client(f2, NoTransport)), s1.cfid), Success(Classify(out2, err2)))
  {
  }
}

=== FILE: text.dfy ===
/**
 The Python string primitives the modelled code relies on: `str.strip()`,
 `in` on strings, `str.split(c)[1]`, `str.replace(a, b)` on one character,
 `int(text)` and `str(n)` for integers.
 */
module Text {
  import opened Wrappers

  /** Python's `str.isspace()` restricted to the ASCII range:
      TAB, LF, VT, FF, CR, the four separators 0x1C-0x1F, and SPACE. */
  predicate IsSpace(c: char) {
    ('\t' <= c <= '\r') || ('\U{001C}' <= c <= '\U{001F}') || c == ' '
  }

  /** The whitespace `int()` skips around its digits: only TAB, LF, VT, FF,
      CR and SPACE, not the separators 0x1C-0x1F that `isspace()` admits. */
  predicate IsIntSpace(c: char) {
    ('\t' <= c <= '\r') || c == ' '
  }

  /** The two whitespace sets: the one `strip()` removes and the smaller one
      `int()` skips. */
  datatype Spaces = StripSpaces | IntSpaces

  predicate IsBlank(w: Spaces, c: char) {
    if w == StripSpaces then IsSpace(c) else IsIntSpace(c)
  }

  /** Every character of `s` is in the set `w`. */
  predicate AllIn(s: string, w: Spaces) {
    forall k :: 0 <= k < |s| ==> IsBlank(w, s[k])
  }

  predicate AllSpace(s: string) {
    AllIn(s, StripSpaces)
  }

  /** Number of characters of set `w` at the front of `s`. */
  function Leading(s: string, w: Spaces): (n: nat)
    ensures n <= |s|
    ensures forall k :: 0 <= k < n ==> IsBlank(w, s[k])
    ensures n < |s| ==> !IsBlank(w, s[n])
  {
    if |s| == 0 || !IsBlank(w, s[0]) then 0 else 1 + Leading(s[1..], w)
  }

  /** Number of characters of set `w` at the end of `s`. */
  function Trailing(s: string, w: Spaces): (n: nat)
    ensures n <= |s|
    ensures forall k :: |s| - n <= k < |s| ==> IsBlank(w, s[k])
    ensures n < |s| ==> !IsBlank(w, s[|s| - 1 - n])
  {
    if |s| == 0 || !IsBlank(w, s[|s| - 1]) then 0 else 1 + Trailing(s[..|s| - 1], w)
  }

  /** Drop the characters of set `w` from both ends of `s`. */
  function Trim(s: string, w: Spaces): (r: string)
    ensures |r| == 0 <==> AllIn(s, w)
    ensures |r| > 0 ==> !IsBlank(w, r[0]) && !IsBlank(w, r[|r| - 1])
    ensures |r| <= |s|
    ensures |r| > 0 ==> r[0] == s[Leading(s, w)]
  {
    var lead := Leading(s, w);
    if lead == |s| then ""
    else
      var trail := Trailing(s, w);
      assert !IsBlank(w, s[lead]);
      s[lead .. |s| - trail]
  }

  /** Python's `s.strip()`: drop whitespace from both ends. */
  function Strip(s: string): (r: string)
    ensures |r| == 0 <==> AllSpace(s)
    ensures |r| > 0 ==> !IsSpace(r[0]) && !IsSpace(r[|r| - 1])
    ensures |r| <= |s|
  {
    Trim(s, StripSpaces)
  }

  /** The text `int()` reads: `s` without the whitespace it skips. */
  function IntStrip(s: string): (r: string)
    ensures |r| == 0 <==> AllIn(s, IntSpaces)
    ensures |r| > 0 ==> !IsIntSpace(r[0]) && !IsIntSpace(r[|r| - 1])
    ensures |r| > 0 ==> r[0] == s[Leading(s, IntSpaces)]
  {
    Trim(s, IntSpaces)
  }

  /** Trimming a padded word gives back exactly the word: the padding is
      all that is removed. */
  lemma TrimPadded(pre: string, word: string, post: string, w: Spaces)
    requires AllIn(pre, w) && AllIn(post, w)
    requires |word| > 0 && !IsBlank(w, word[0]) && !IsBlank(w, word[|word| - 1])
    ensures Trim(pre + word + post, w) == word
  {
    var s := pre + word + post;
    var lead := Leading(s, w);
    assert s[|pre|] == word[0];
    assert forall k :: 0 <= k < |pre| ==> s[k] == pre[k];
    assert lead == |pre|;
    var trail := Trailing(s, w);
    assert s[|s| - 1 - |post|] == word[|word| - 1];
    assert forall k :: |pre| + |word| <= k < |s| ==> s[k] == post[k - |pre| - |word|];
    assert trail == |post|;
    assert s[lead .. |s| - trail] == word;
  }

  /** Stripping a padded word gives back exactly the word. */
  lemma StripPadded(pre: string, word: string, post: string)
    requires AllSpace(pre) && AllSpace(post)
    requires |word| > 0 && !IsSpace(word[0]) && !IsSpace(word[|word| - 1])
    ensures Strip(pre + word + post) == word
  {
    TrimPadded(pre, word, post, StripSpaces);
  }

  /** Python's `t in s` for strings: `t` occurs in `s` as a contiguous piece. */
  predicate Contains(s: string, t: string)
    decreases |s|
  {
    t <= s || (|s| > 0 && Contains(s[1..], t))
  }

  /** `Contains` holds exactly when `t` starts at some position of `s`. */
  lemma {:induction false} ContainsIffOccurs(s: string, t: string)
    ensures Contains(s, t) <==> exists i :: 0 <= i <= |s| && t <= s[i..]
    decreases |s|
  {
    if t <= s {
      assert s[0..] == s;
    } else if |s| > 0 {
      ContainsIffOccurs(s[1..], t);
      if Contains(s[1..], t) {
        var i :| 0 <= i <= |s[1..]| && t <= s[1..][i..];
        assert s[1..][i..] == s[i + 1..];
      } else {
        forall i | 0 <= i <= |s|
          ensures !(t <= s[i..])
        {
          if i == 0 {
            assert s[0..] == s;
          } else {
            assert s[1..][i - 1..] == s[i..];
          }
        }
      }
    } else {
      forall i | 0 <= i <= |s|
        ensures !(t <= s[i..])
      {
        assert s[i..] == s;
      }
    }
  }

  /** The first position of `c` in `s`, if any (Python's `s.find(c)`). */
  function IndexOf(s: string, c: char): (r: Option<nat>)
    ensures r.Some? ==> r.value < |s| && s[r.value] == c
    ensures r.Some? ==> forall k :: 0 <= k < r.value ==> s[k] != c
    ensures r.None? <==> c !in s
  {
    if |s| == 0 then None
    else if s[0] == c then Some(0)
    else match IndexOf(s[1..], c)
      case None => None
      case Some(k) => Some(k + 1)
  }

  /** Python's `s.split(c)[1]`: the text between the first and the second
      occurrence of `c` (or the end of `s`); `None` where Python raises
      `IndexError` because `c` does not occur at all. */
  function SecondField(s: string, c: char): (r: Option<string>)
    ensures r.None? <==> c !in s
    ensures r.Some? ==> c !in r.value
    ensures r.Some? ==> exists i :: 0 <= i < |s| && s[i] == c && c !in s[..i] && r.value <= s[i + 1..]
    ensures r.Some? ==> var i := IndexOf(s, c).value;
      && r.value <= s[i + 1..]
      && (i + 1 + |r.value| == |s| || s[i + 1 + |r.value|] == c)
  {
    match IndexOf(s, c)
    case None => None
    case Some(i) =>
      var rest := s[i + 1..];
      assert c !in s[..i];
      match IndexOf(rest, c)
      case None => Some(rest)
      case Some(j) => Some(rest[..j])
  }

  /** With a single separator, the second field is everything after it. */
  lemma SecondFieldAfterOnly(a: string, c: char, b: string)
    requires c !in a && c !in b
    ensures SecondField(a + [c] + b, c) == Some(b)
  {
    var s := a + [c] + b;
    assert s[|a|] == c;
    assert forall k :: 0 <= k < |a| ==> s[k] == a[k];
    assert IndexOf(s, c) == Some(|a|);
    assert s[|a| + 1..] == b;
  }

  /** Python's `s.replace(a, b)` for single characters. */
  function ReplaceChar(s: string, a: char, b: char): (r: string)
    ensures |r| == |s|
    ensures forall k :: 0 <= k < |s| ==> r[k] == (if s[k] == a then b else s[k])
  {
    if |s| == 0 then "" else [if s[0] == a then b else s[0]] + ReplaceChar(s[1..], a, b)
  }

  predicate IsDigit(c: char) {
    '0' <= c <= '9'
  }

  predicate AllDigits(s: string) {
    forall k :: 0 <= k < |s| ==> IsDigit(s[k])
  }

  function DigitValue(c: char): nat
    requires IsDigit(c)
  {
    (c as int) - ('0' as int)
  }

  function DigitChar(d: nat): (c: char)
    requires d < 10
    ensures IsDigit(c) && DigitValue(c) == d
  {
    (('0' as int) + d) as char
  }

  /** The number a string of decimal digits denotes. */
  function DigitsValue(s: string): nat
    requires AllDigits(s)
  {
    if |s| == 0 then 0 else 10 * DigitsValue(s[..|s| - 1]) + DigitValue(s[|s| - 1])
  }

  /** Decimal rendering of a natural number, as Python's `str(n)`. */
  function NatToString(n: nat): (r: string)
    ensures |r| > 0 && AllDigits(r)
    ensures DigitsValue(r) == n
    ensures r[0] == '0' ==> n == 0 && r == "0"
  {
    if n < 10 then [DigitChar(n)]
    else
      var front := NatToString(n / 10);
      var r := front + [DigitChar(n % 10)];
      assert r[..|r| - 1] == front;
      r
  }

  /** Decimal rendering of an integer, as Python's `str(i)`. */
  function IntToString(i: int): (r: string)
    ensures |r| > 0
    ensures r[0] == '-' <==> i < 0
    ensures i >= 0 ==> AllDigits(r) && DigitsValue(r) == i
    ensures i < 0 ==> |r| > 1 && AllDigits(r[1..]) && DigitsValue(r[1..]) == -i
    ensures r[0] == '0' ==> i == 0 && r == "0"
    ensures i < 0 ==> r[1] != '0'
    ensures !IsSpace(r[0]) && !IsSpace(r[|r| - 1])
  {
    if i < 0 then "-" + NatToString(-i) else NatToString(i)
  }

  /** Python's `int(text)` in base 10: the whitespace `int()` skips is
      ignored at both ends, then an optional sign and one or more decimal
      digits must remain. `None` where Python raises `ValueError`. */
  function ParseInt(s: string): (r: Option<int>)
    ensures AllSpace(s) ==> r.None?
    ensures var t := IntStrip(s);
      r.Some? <==> (|t| > 0 && AllDigits(t)) || (|t| > 1 && t[0] in "+-" && AllDigits(t[1..]))
    ensures r.Some? ==> var t := IntStrip(s);
      (AllDigits(t) && DigitsValue(t) == r.value) ||
      (|t| > 1 && t[0] in "+-" && AllDigits(t[1..]) &&
       r.value == (if t[0] == '-' then -(DigitsValue(t[1..]) as int) else DigitsValue(t[1..])))
  {
    var t := IntStrip(s);
    assert AllSpace(s) && |t| > 0 ==> IsSpace(s[Leading(s, IntSpaces)]);
    if |t| > 0 && (t[0] == '-' || t[0] == '+') then
      if |t| > 1 && AllDigits(t[1..]) then
        Some(if t[0] == '-' then -(DigitsValue(t[1..]) as int) else DigitsValue(t[1..]))
      else None
    else if |t| > 0 && AllDigits(t) then Some(DigitsValue(t))
    else None
  }

  /** Text whose stripped form starts with neither a sign nor a digit is
      rejected by `int()`. */
  lemma ParseIntRejects(s: string)
    requires |IntStrip(s)| > 0 && !IsDigit(IntStrip(s)[0]) && IntStrip(s)[0] !in "+-"
    ensures ParseInt(s) == None
  {
  }

  /** A separator 0x1C-0x1F next to the digits is not skipped by `int()`,
      although `strip()` removes it. */
  lemma SeparatorNotSkipped(d: string)
    requires |d| > 0 && AllDigits(d)
    ensures Strip(['\U{001C}'] + d) == d
    ensures ParseInt(['\U{001C}'] + d) == None
  {
    var s := ['\U{001C}'] + d;
    assert s[1..] == d;
    StripsSeparator(s);
    TrimUnpadded(s, IntSpaces);
    ParseIntRejects(s);
  }

  /** `strip()` removes a leading separator 0x1C. */
  lemma StripsSeparator(s: string)
    requires |s| > 1 && s[0] == '\U{001C}' && !IsSpace(s[|s| - 1]) && !IsSpace(s[1])
    ensures Strip(s) == s[1..]
  {
    assert Leading(s, StripSpaces) == 1 by {
      assert Leading(s[1..], StripSpaces) == 0;
    }
    assert Trailing(s, StripSpaces) == 0;
  }

  /** Text that neither starts nor ends with a character of set `w` is
      left as it is. */
  lemma TrimUnpadded(s: string, w: Spaces)
    requires |s| > 0 && !IsBlank(w, s[0]) && !IsBlank(w, s[|s| - 1])
    ensures Trim(s, w) == s
  {
    assert Leading(s, w) == 0;
    assert Trailing(s, w) == 0;
    assert s[0..|s|] == s;
  }

  /** `int(str(i)) == i`, also with the whitespace `int()` skips around the
      digits. */
  lemma {:induction false} ParseIntToString(pre: string, i: int, post: string)
    requires AllIn(pre, IntSpaces) && AllIn(post, IntSpaces)
    ensures ParseInt(pre + IntToString(i) + post) == Some(i)
  {
    var d := IntToString(i);
    TrimPadded(pre, d, post, IntSpaces);
    if i < 0 {
      assert d[1..] == NatToString(-i);
    }
  }

  /** Distinct integers have distinct renderings. */
  lemma IntToStringInjective(i: int, j: int)
    ensures IntToString(i) == IntToString(j) ==> i == j
  {
    if IntToString(i) == IntToString(j) {
      SameRenderingSameInt(i, j);
    }
  }

  lemma SameRenderingSameInt(i: int, j: int)
    requires IntToString(i) == IntToString(j)
    ensures i == j
  {
    ParseIntToString("", i, "");
    ParseIntToString("", j, "");
    assert "" + IntToString(i) + "" == IntToString(i);
    assert "" + IntToString(j) + "" == IntToString(j);
  }

  /** Python's `sep.join(parts)`. */
  function Join(parts: seq<string>, sep: string): (r: string)
    ensures |parts| == 1 ==> r == parts[0]
    ensures |parts| == 0 ==> r == ""
    ensures |parts| > 0 ==> parts[0] <= r
  {
    if |parts| == 0 then ""
    else if |parts| == 1 then parts[0]
    else parts[0] + sep + Join(parts[1..], sep)
  }
}

=== FILE: values.dfy ===
/**
 The Python values that flow through the utilities: configuration values,
 row cells and list elements, with the three Python views of them the code
 uses: `str(v)`, `repr(v)` and truthiness. Also the configuration dict and
 `UniUtil.del_none`.
 */
module Values {
  import opened Wrappers
  import Text

  /** The kinds of value that appear in configurations and data rows.
      Floating-point numbers are not modelled. */
  datatype Value =
    | Str(s: string)
    | Int(i: int)
    | Bool(b: bool)
    | Nil          // Python's None

  /** Python's `str(v)`: a string is itself, an integer is its canonical
      decimal text, which reads back as that integer with `int()`, and the
      constants are their names. */
  function StrOf(v: Value): (r: string)
    ensures v.Str? ==> r == v.s
    ensures v.Int? ==> r == Text.IntToString(v.i) && Text.ParseInt(r) == Some(v.i)
    ensures v == Bool(true) ==> r == "True"
    ensures v == Bool(false) ==> r == "False"
    ensures v == Nil ==> r == "None"
  {
    match v
    case Str(s) => s
    case Int(i) =>
      Text.ParseIntToString("", i, "");
      assert "" + Text.IntToString(i) + "" == Text.IntToString(i);
      Text.IntToString(i)
    case Bool(b) => if b then "True" else "False"
    case Nil => "None"
  }

  /** The quote character Python's `repr` chooses for a string: a double
      quote when the text holds a single quote and no double quote. */
  function QuoteFor(s: string): char {
    if '\'' in s && '"' !in s then '"' else '\''
  }

  /** How `repr` writes one character inside quotes `q`. */
  function EscapeChar(c: char, q: char): (e: string)
    ensures 1 <= |e| <= 2
    ensures |e| == 1 <==> e[0] != '\\'
  {
    if c == '\\' then "\\\\"
    else if c == q then ['\\', q]
    else if c == '\n' then "\\n"
    else if c == '\r' then "\\r"
    else if c == '\t' then "\\t"
    else [c]
  }

  /** The escaped body of a string's repr, quoted with `q`. */
  function Escape(s: string, q: char): string {
    if |s| == 0 then "" else EscapeChar(s[0], q) + Escape(s[1..], q)
  }

  /** The character an escape `\\x` stands for. */
  function Unescaped(x: char): char {
    if x == 'n' then '\n' else if x == 'r' then '\r' else if x == 't' then '\t' else x
  }

  /** Reading the body of a repr back: `\\x` is one escaped character,
      anything else stands for itself. */
  function Unescape(t: string): string
    decreases |t|
  {
    if |t| == 0 then ""
    else if t[0] == '\\' && |t| >= 2 then [Unescaped(t[1])] + Unescape(t[2..])
    else [t[0]] + Unescape(t[1..])
  }

  /** Escaping loses nothing: the escaped body reads back as the text. */
  lemma {:induction false} UnescapeEscape(s: string, q: char)
    requires q == '\'' || q == '"'
    ensures Unescape(Escape(s, q)) == s
    decreases |s|
  {
    if |s| > 0 {
      var e := EscapeChar(s[0], q);
      var rest := Escape(s[1..], q);
      UnescapeEscape(s[1..], q);
      if |e| == 2 {
        assert (e + rest)[2..] == rest;
      } else {
        assert (e + rest)[1..] == rest;
      }
      assert s == [s[0]] + s[1..];
    }
  }

  /** Python's `repr(v)`: a string is quoted with the quote Python picks and
      its body reads back as the string; other values render as `str`. */
  function Repr(v: Value): (r: string)
    ensures v.Str? ==> |r| >= 2 && r[0] == r[|r| - 1] == QuoteFor(v.s)
    ensures v.Str? ==> Unescape(r[1..|r| - 1]) == v.s
    ensures !v.Str? ==> r == StrOf(v)
  {
    match v
    case Str(s) =>
      var q := QuoteFor(s);
      var r := [q] + Escape(s, q) + [q];
      UnescapeEscape(s, q);
      assert r[1..|r| - 1] == Escape(s, q);
      r
    case _ => StrOf(v)
  }

  /** Different strings have different reprs, so the rendered items of a
      configuration keep their values apart. */
  lemma ReprStrInjective(a: string, b: string)
    ensures Repr(Str(a)) == Repr(Str(b)) ==> a == b
  {
  }

  /** Python truthiness: `None`, `False`, `0` and `''` are false. */
  predicate Truthy(v: Value)
    ensures Truthy(v) <==> v !in {Nil, Bool(false), Int(0), Str("")}
  {
    match v
    case Str(s) => |s| > 0
    case Int(i) => i != 0
    case Bool(b) => b
    case Nil => false
  }

  /** `UniUtil.del_none(li)`, the comprehension `[e for e in li if e]`:
      every kept element is truthy and every truthy element is kept as
      often as it occurs. */
  function DelNone(li: seq<Value>): (r: seq<Value>)
    ensures forall v :: v in r ==> Truthy(v)
    ensures forall v | Truthy(v) :: multiset(r)[v] == multiset(li)[v]
    ensures |r| <= |li|
  {
    if |li| == 0 then []
    else
      assert li == [li[0]] + li[1..];
      (if Truthy(li[0]) then [li[0]] else []) + DelNone(li[1..])
  }

  /** `del_none` keeps the relative order: it distributes over concatenation. */
  lemma {:induction false} DelNoneAppend(a: seq<Value>, b: seq<Value>)
    ensures DelNone(a + b) == DelNone(a) + DelNone(b)
    decreases |a|
  {
    if |a| == 0 {
      assert a + b == b;
    } else {
      assert (a + b)[1..] == a[1..] + b;
      DelNoneAppend(a[1..], b);
    }
  }

  predicate AllTruthy(li: seq<Value>) {
    forall k :: 0 <= k < |li| ==> Truthy(li[k])
  }

  /** An all-truthy list passes through unchanged. */
  lemma {:induction false} DelNoneKeepsTruthy(li: seq<Value>)
    requires AllTruthy(li)
    ensures DelNone(li) == li
    decreases |li|
  {
    if |li| > 0 {
      var tail := li[1..];
      assert forall k :: 0 <= k < |tail| ==> tail[k] == li[k + 1];
      DelNoneKeepsTruthy(tail);
      assert li == [li[0]] + tail;
    }
  }

  /** A list is left unchanged exactly when all its elements are truthy. */
  lemma DelNoneFixedIff(li: seq<Value>)
    ensures DelNone(li) == li <==> AllTruthy(li)
  {
    if AllTruthy(li) {
      DelNoneKeepsTruthy(li);
    } else {
      assert forall k :: 0 <= k < |li| ==> li[k] in li;
    }
  }

  /** Filtering twice is filtering once. */
  lemma DelNoneIdempotent(li: seq<Value>)
    ensures DelNone(DelNone(li)) == DelNone(li)
  {
    var r := DelNone(li);
    DelNoneFixedIff(r);
    assert forall k :: 0 <= k < |r| ==> r[k] in r;
  }

  /** A configuration dict, as its `(key, value)` items in insertion order. */
  type Config = seq<(string, Value)>

  /** Dict keys are unique. */
  predicate DistinctKeys(c: Config) {
    forall i, j :: 0 <= i < j < |c| ==> c[i].0 != c[j].0
  }

  /** Two dicts hold the same items, whatever their insertion order. */
  ghost predicate SameItems(c1: Config, c2: Config) {
    forall e :: e in c1 <==> e in c2
  }

  /** `conf[key]`; `None` where Python raises `KeyError`. */
  function Lookup(c: Config, key: string): (r: Option<Value>)
    ensures r.Some? ==> (key, r.value) in c
    ensures r.None? <==> forall k :: 0 <= k < |c| ==> c[k].0 != key
  {
    if |c| == 0 then None
    else if c[0].0 == key then Some(c[0].1)
    else Lookup(c[1..], key)
  }
}

=== FILE: wrappers.dfy ===
/** Optional values, call outcomes and the Python exceptions used throughout the model. */
module Wrappers {

  /** An optional value; `None` stands for Python's `None` or a missing result. */
  datatype Option<+T> = None | Some(value: T)

  /** The outcome of a Python call: a value, or the exception it raised. */
  datatype Result<+T, +E> = Success(value: T) | Failure(error: E)

  /** The Python exceptions the modelled code can raise. */
  datatype PyError =
    | IndexError      // indexing past the end of a list or tuple
    | ValueError      // int() applied to text that is not an integer literal
    | TypeError       // a call that omits a required argument
    | KeyError        // a dict lookup of an absent key
    | AttributeError  // a method called on None or on a closed client
    | SSHException    // paramiko refusing a channel on an unfinished transport

  /** Apply `f` to each element in order, stopping at the first failure:
      a Python loop whose body may raise. */
  function MapUntilFailure<T, U, E>(f: T -> Result<U, E>, xs: seq<T>): (r: Result<seq<U>, E>)
    ensures r.Success? <==> forall i :: 0 <= i < |xs| ==> f(xs[i]).Success?
    ensures r.Success? ==> |r.value| == |xs|
    ensures r.Success? ==> forall i :: 0 <= i < |xs| ==> f(xs[i]) == Success(r.value[i])
    ensures r.Failure? ==> exists i :: 0 <= i < |xs| && f(xs[i]) == Failure(r.error) &&
                                       forall j :: 0 <= j < i ==> f(xs[j]).Success?
  {
    if |xs| == 0 then Success([])
    else
      var head := f(xs[0]);
      var tail := MapUntilFailure(f, xs[1..]);
      assert forall i :: 1 <= i < |xs| ==> xs[i] == xs[1..][i - 1];
      if head.Failure? then Failure(head.error)
      else if tail.Failure? then Failure(tail.error)
      else Success([head.value] + tail.value)
  }
}
